=== FILE: README.md ===
# CFS scheduler simulator: a Dafny model

This project models the two pieces of logic in the CFS scheduler simulator:

- **The red-black tree of `RBT.py`.** It follows the CLRS chapter. One shared black sentinel
  stands for every leaf. Each node carries a key (`val`, the vruntime) and a payload
  (`process`, a name). The tree is the ready queue.
- **The `CFS` loop of `CFS.py`.** Each tick it does the following:
  - admits the processes that have arrived;
  - idles, or sizes a timeslice;
  - runs the process with the smallest vruntime;
  - charges waiting time to everybody else;
  - either finishes the running process, or requeues it with its weighted vruntime and counts
    a preemption.

The model is split into five modules:

- `RbTree` (`rb_tree.dfy`): the data model and the queries.
  - An immutable tree `Tree = Nil | Node(color, left, key, pid, right)`. `Nil` is the sentinel.
  - The in-order sequence of `Entry(key, pid)` pairs; BST order is "that sequence is sorted
    by key".
  - The colouring rules.
  - The two rotations.
  - A zipper (`seq<Frame>`, nearest ancestor first). It stands for the parent links the
    source follows upward.
  - Node handles are routes (`seq<Dir>`) from the root; `NilHandle` is the sentinel.
  - `get_leftmost`, `search` and `tree_successor`.
- `RbInsert` (`rb_insert.dfy`): the descent of `insert`, and `fix_insert` as a recursive
  function over the loop state (focus node, ancestors).
- `RbDelete` (`rb_delete.dfy`): the splice step of `delete`, and `fix_delete` as a recursive
  function over (focus `x`, ancestors). Each loop pass is `StepLeft` or `StepRight`.
- `RedBlackTree` (`red_black_tree.dfy`): the `RBT` object, i.e. root plus `n_elements`.
  - `Valid` ties the counter to the node count, requires BST order and a black root.
  - Insert and delete keep `Valid`. They change the in-order sequence and the multiset of
    names by exactly the one entry involved.
- `Cfs` (`cfs.dfy`): the scheduler state `Sim`.
  - `Sim` holds the clock, the queue, `processes`, the `process_info` table and the table's
    key order.
  - One loop iteration is `Tick`: `AdmitFrom`, then either an idle step or `Run`.
  - `Simulate` drives ticks under the invariant `Inv`.
  - `Inv` says the following:
    - the queue is `Valid`;
    - exactly one queue node exists per admitted, unfinished process;
    - `processes` names exactly the unfinished processes;
    - each row's flags are consistent: a finished process was admitted and dispatched, and
      its burst is used up.

Times, keys and bursts are Dafny `real`s. Python's `round(x, 2)` is modelled as `Round2`,
rounding halves up.

## Model

| member | source | states |
|---|---|---|
| RbTree.RotateLeft | RBT.py:246-262 | a left rotation keeps the in-order (key, name) sequence and the node count; only the shape changes |
| RbTree.RotateRight | RBT.py:264-280 | a right rotation keeps the in-order (key, name) sequence and the node count |
| RbTree.RotationsAreInverse | RBT.py:246-280 | a right rotation undoes a left rotation at the same node |
| RbTree.Leftmost | RBT.py:26-33 | answers the sentinel exactly when the tree is empty; otherwise a node with no left child that comes first in order, reached by left links only |
| RbTree.LeftmostIsMinimum | RBT.py:26-33 | in a BST the leftmost node holds the first entry, and its key is at most every key in the tree |
| RbTree.TreeSuccessor | RBT.py:122-129 | with a right subtree, the successor is that subtree's leftmost node, and it has no left child |
| RbTree.SuccessorIsNextInOrder | RBT.py:122-137 | the successor, found down the right subtree or up the parent links, is the next node in order; the sentinel is answered exactly for the last node |
| RbTree.Search | RBT.py:35-48 | a non-sentinel answer is a node whose key and name both equal the arguments |
| RbTree.SearchFindsUniqueKey | RBT.py:35-48 | in a BST, search finds a present (key, name) pair when no other entry has that key |
| RbTree.PaintBlackKeepsRules | RBT.py:181 | blackening the root of a tree that has no red-red edge and balanced black heights yields a red-black tree |
| RbTree.PlugRoot | RBT.py:105-112 | rebuilding a tree from a focus and its ancestors puts the outermost ancestor at the root, with its colour |
| RbInsert.UpperBound | RBT.py:61-66 | the insertion point: every earlier entry has key at most k, and the entry at that point has a larger key |
| RbInsert.Descend | RBT.py:56-68 | the descent only records ancestors: plugging the sentinel back gives the original tree |
| RbInsert.DescendInOrder | RBT.py:59-77 | the descent stops where the entries before have keys at most k and the entries after have larger keys (ties go right) |
| RbInsert.FixInsertInOrder | RBT.py:139-181 | `fix_insert` only recolours and rotates, so the in-order sequence is unchanged |
| RbInsert.InsertInOrder | RBT.py:50-85 | insert puts the new pair right after the last entry whose key is at most its own, so ties keep insertion order; size grows by one; BST order is kept |
| RbInsert.FixInsertRules | RBT.py:142-181 | starting from a red node whose surroundings satisfy the rules except for its own colour, `fix_insert` yields a red-black tree |
| RbInsert.BlackUncleRules | RBT.py:154-164 | the black-uncle cases (rotations plus recolouring) produce a black-rooted subtree, free of red-red edges, one black level taller |
| RbInsert.InsertKeepsRedBlack | RBT.py:50-85 | inserting into a red-black tree yields a red-black tree: black root, no red node with a red child, equal black heights |
| RbInsert.FixInsertRootBlack | RBT.py:139-181 | every way out of `fix_insert` leaves a black root |
| RbDelete.SpliceInOrder | RBT.py:91-116 | splicing out node z, or its successor when z has two children, removes exactly z's position from the in-order sequence |
| RbDelete.SpliceCopiesSuccessor | RBT.py:97-116 | in the two-child case, z's node now holds the entry of `tree_successor(z)` |
| RbDelete.StepLeft | RBT.py:185-218 | one `fix_delete` pass with x a left child either stops, or climbs, or leaves the focus at the same depth but not black |
| RbDelete.StepRight | RBT.py:220-243 | the mirror pass, with the same progress guarantee |
| RbDelete.StepLeftInOrder | RBT.py:185-218 | a left-side pass (cases 1 to 4) keeps the in-order sequence |
| RbDelete.StepRightInOrder | RBT.py:220-243 | a right-side pass keeps the in-order sequence |
| RbDelete.FixDeleteInOrder | RBT.py:183-244 | `fix_delete` keeps the in-order sequence |
| RbDelete.SpliceRoot | RBT.py:91-112 | splicing out a node keeps the root's frame black, and a splice that leaves no ancestors removed the black root itself |
| RbDelete.StepLeftRoot | RBT.py:185-218 | a left-side repair pass that ends paints the root black; one that moves up keeps the root's frame black |
| RbDelete.StepRightRoot | RBT.py:220-243 | the same for a right-side pass |
| RbDelete.FixDeleteRootBlack | RBT.py:183-244 | `fix_delete` leaves a black root when the root starts black |
| RbDelete.DeleteRootBlack | RBT.py:87-119 | delete on a tree with a black root leaves a black root |
| RbDelete.DeleteInOrder | RBT.py:87-119 | delete removes exactly the handled node's (key, name) pair at its in-order position; size drops by one; BST order is kept |
| RbDelete.DeleteCanUnbalance | RBT.py:184 | inserting 10, 5, 15, 20 and then deleting 5 leaves unequal black heights, because `fix_delete` does nothing for the sentinel |
| RbDelete.SearchMissesDuplicate | RBT.py:39-46 | with three equal keys, search misses a present pair that sits in a left subtree |
| RedBlackTree.Empty | RBT.py:14-24 | a fresh tree is valid (counter agrees with the node count, the root is the black sentinel) and holds no entries |
| RedBlackTree.FrontIsMinimum | RBT.py:26-33 | the leftmost entry is the first in order and has the minimum key |
| RedBlackTree.InsertKeepsValid | RBT.py:50-85 | insert keeps the counter equal to the node count, BST order and a black root; adds exactly one entry at its tie-right position; adds the name once to the multiset of names |
| RedBlackTree.DeleteKeepsValid | RBT.py:87-119 | delete keeps the counter equal to the node count, BST order and a black root; removes exactly the handled entry; removes its name once from the multiset of names |
| Cfs.Weight | CFS.py:56-59 | nice -20 gives weight at least 0.01 (positive); nice 19 gives at most 1.9405 |
| Cfs.WeightMonotone | CFS.py:56-59 | a larger nice value never gives a smaller weight |
| Cfs.Round2 | CFS.py:91 | two-decimal rounding moves a value by at most half a hundredth |
| Cfs.Round2Monotone | CFS.py:91 | rounding keeps order |
| Cfs.Round2OnGrid | CFS.py:91 | a value already on the hundredths grid rounds to itself |
| Cfs.TimesliceFloor | CFS.py:87-91 | the timeslice is exactly `granularity` when quantum/N does not exceed it, otherwise quantum/N rounded; so it is never below granularity up to rounding, and never below it for a granularity on the hundredths grid |
| Cfs.DefaultTimeslice | CFS.py:52-91 | with the default arguments (quantum 10, granularity 0.5) a timeslice is at least 0.5, and exactly 0.5 from twenty contenders on |
| Cfs.TimesliceCanVanish | CFS.py:87-91 | a positive quantum and granularity can still give a zero timeslice: 0.004 over one contender exceeds granularity 0.001 and rounds to 0 |
| Cfs.InitialInv | CFS.py:52-54 | the state at loop entry (time 0, empty tree, fresh rows) satisfies the loop invariant |
| Cfs.StartKeyWithinQueue | CFS.py:70-73 | a new process starts with the root's key, which lies between the smallest and largest queued keys |
| Cfs.AddToActive | CFS.py:74-76 | admitting a row adds its name once to the admitted, unfinished names and leaves the unfinished names alone |
| Cfs.AdmitOneKeepsInv | CFS.py:69-76 | admitting one eligible process keeps the invariant; its one new node carries the start key (0 for an empty tree, otherwise the root's key) and lands right after the last queued entry whose key is at most that key |
| Cfs.AdmitFromSpec | CFS.py:63-76 | admission keeps the invariant and the clock; a row gets `hasEnteredQueue` set exactly when it has arrived and had not entered; no other field changes |
| Cfs.AdmitNone | CFS.py:63-76 | when no process is eligible, admission changes nothing |
| Cfs.IdleTick | CFS.py:78-85 | when the tree is empty after admission, the tick advances time by exactly `timestep` and changes nothing else |
| Cfs.FrontIsActive | CFS.py:96-99 | the leftmost node belongs to an admitted, unfinished process |
| Cfs.DequeueFacts | CFS.py:98-101 | after removing the leftmost node the queue is valid and holds no node of the running process |
| Cfs.ChargeRows | CFS.py:104-122 | response is set only on first dispatch; burst drops by the timeslice; every other admitted, unfinished row gains the timeslice as waiting time; other rows are untouched |
| Cfs.ChargeOwnRow | CFS.py:114-122 | the running row keeps its flags, priority and preemption count while its burst drops by the timeslice |
| Cfs.EndOne | CFS.py:124-127 | ending a process removes its name from `processes` and once from the admitted names |
| Cfs.RunDispatch | CFS.py:96-122 | the dispatched process has the minimum key; `hasStarted` becomes true, with `response = time - arrival` only on the first dispatch; its waiting is unchanged; its burst drops by the timeslice; every other admitted, unfinished process waits the timeslice more; time advances by the timeslice |
| Cfs.KeyGrows | CFS.py:120 | for nice at least -20 and a positive timeslice, the new vruntime is strictly larger |
| Cfs.PreemptionRule | CFS.py:131-137 | after requeueing, the leftmost node belongs to another process exactly when some other queued entry has a key at most the new vruntime |
| Cfs.ConcludeRows | CFS.py:124-140 | the end of a run advances the clock by the timeslice, ends the process exactly when its burst is spent, and changes no other row |
| Cfs.ConcludeFinish | CFS.py:124-127 | a spent burst ends the process: it leaves `processes` and the queue, and its preemption count is unchanged |
| Cfs.ConcludeRequeue | CFS.py:129-137 | otherwise the process is reinserted with its new vruntime, and its preemption count grows by one exactly when another process is now leftmost |
| Cfs.RunFinishOrRequeue | CFS.py:119-140 | after a run, the process either ended with its burst spent and is out of the queue, or sits in the queue under `old + timeslice * weight` with preemptions counted as above |
| Cfs.RunKeepsInv | CFS.py:96-140 | a run keeps the invariant: exactly one queue node per admitted, unfinished process, and the counter is exact |
| Cfs.RunKeepsTimely | CFS.py:104-109 | with a non-negative granularity, admitted processes have arrived by now and every response time is non-negative |
| Cfs.ConcludeTimely | CFS.py:124-140 | ending a dispatch moves the clock forward by a non-negative timeslice, so admitted processes have still arrived by now and response times stay non-negative |
| Cfs.TickKeepsInv | CFS.py:61-140 | one loop iteration keeps the invariant (and the clock facts, for non-negative granularity and timestep) |
| Cfs.Simulate | CFS.py:61-145 | the loop keeps the invariant, and the clock facts for non-negative granularity and timestep; `done` is true exactly when `processes` is empty, and then every process has entered, started and ended, with a non-negative response time under those sign conditions |

## Left out

- `read_input`, `showresults` and the `__main__` block are not modelled. They are file I/O,
  token parsing, random defaults, printing and averaging. The model starts from a table of
  fresh rows (`Initial`, `InitialInv`).
- The verbose trace (the `text` string and the `print` calls) is not modelled. It is
  presentation only.
- Cfs.Round2: IEEE floating point is not modelled, and Python's `round` rounds halves to
  even on binary floats. The model uses exact reals and rounds halves up. So every timeslice
  statement holds up to that two-decimal rounding.
- Node identity is modelled as a route from the root, not as a Python object. A handle
  names the node the route reaches, and every tree is immutable.
- RbDelete.FixDelete: the source paints the sentinel in cases that are reachable only after
  black heights are already unequal. In the model the sentinel is never recoloured, because
  `Nil` carries no colour field.
  - Example: case 2 with a sentinel sibling, which the source paints red.
  - When x is a black root, the source makes one more pass that finds a sentinel sibling.
    That pass paints the sentinel red, and the final `x.color = 0` paints it black again.
    The model stops at the root instead, which has the same effect.
- RbDelete.Delete: no red-black (black-height) property is stated after delete, because
  the source does not keep it. The loop guard on `RBT.py:184` skips the repair whenever the
  spliced-in child is the sentinel; `RbDelete.DeleteCanUnbalance` exhibits a concrete
  instance. Only order, contents and count are proved for delete. For the same reason the
  scheduler's queue is not claimed to stay red-black; it is claimed to stay a valid BST with
  an exact counter and a black root.
- RbInsert.FixInsert: when z's parent is red but has no parent of its own, the model just
  paints the root black. In the source that would mean a red root: the loop would take a
  pass with the sentinel as grandparent and lose the tree. That state is unreachable from a
  black root, and `Valid` requires a black root, which insert (`RbInsert.FixInsertRootBlack`)
  and delete (`RbDelete.DeleteRootBlack`) keep.
- RbInsert.InsertKeepsRedBlack requires a red-black tree. Inside the scheduler the queue
  need not be one after a delete (see the RbDelete.Delete line).
- Cfs.Tick requires the loop invariant. It is stated for the reachable states the loop
  visits; `Inv` rules out `processes.remove` of a missing name and a missing table row.
- Cfs.TickKeepsInv: the clock facts in `Timely` are kept only for non-negative
  `granularity` and `timestep`. A negative timeslice or timestep would let the clock run
  backwards.
- Cfs.Simulate runs at most `fuel` ticks and reports whether `processes` became empty.
  Termination is not claimed. With `timestep <= 0` an idle tick never reaches a later
  arrival. A timeslice that rounds to 0 or below never uses up a burst: quantum 0.004 with
  granularity 0.001 gives 0 (`Cfs.TimesliceCanVanish`).
- The averages `showresults` computes from the final table are not modelled.

=== FILE: cfs.dfy ===
/** The `CFS` scheduling loop: a process table, a red-black tree of
    (vruntime, name) pairs as the ready queue, and a clock. Each tick admits
    the processes that have arrived, then either idles or runs the process
    with the smallest vruntime for one timeslice. */
module Cfs {
  import opened RbTree
  import opened RedBlackTree
  import RbInsert

  /** One row of `process_info`. */
  datatype Record = Record(
    priority: int, burst: real, arrival: real,
    entered: bool, started: bool, ended: bool,
    waiting: real, response: real, preempted: nat)

  /** The parameters `quantum`, `granularity` and `timestep` of `CFS`. */
  datatype Config = Config(quantum: real, granularity: real, timestep: real)

  /** The default arguments of `CFS`: quantum 10, granularity 0.5, timestep 0.05. */
  function DefaultConfig(): Config {
    Config(10.0, 0.5, 0.05)
  }

  /** The loop state: the clock, the ready queue, the set `processes` of
      unfinished names, the process table, and the table's key order (the
      order in which `process_info.keys()` is walked). */
  datatype Sim = Sim(time: real, queue: Rbt, processes: set<string>,
                     info: map<string, Record>, order: seq<string>)

  // ---------------------------------------------------------------------
  // Arithmetic

  /** `weights`: nice -20 weighs 0.01, nice 19 about 1.94, linear between. */
  function Weight(priority: int): (w: real)
    ensures priority >= -20 ==> w >= 0.01
    ensures priority <= 19 ==> w <= 1.9405
  {
    (99 * priority) as real / 2000.0 + 1.0
  }

  /** A higher nice value never weighs less. */
  lemma WeightMonotone(a: int, b: int)
    requires a <= b
    ensures Weight(a) <= Weight(b)
  {
  }

  /** The vruntime after running for `ts` at nice value `priority`. */
  function Advance(vruntime: real, ts: real, priority: int): real {
    vruntime + ts * Weight(priority)
  }

  /** `round(x, 2)`, with halves rounded up. */
  function Round2(x: real): (r: real)
    ensures x - 0.005 < r <= x + 0.005
  {
    (x * 100.0 + 0.5).Floor as real / 100.0
  }

  lemma Round2Monotone(x: real, y: real)
    requires x <= y
    ensures Round2(x) <= Round2(y)
  {
    var a, b := (x * 100.0 + 0.5).Floor, (y * 100.0 + 0.5).Floor;
    assert a as real < b as real + 1.0 by {
      assert x * 100.0 <= y * 100.0;
    }
    assert a <= b;
    DivideMonotone(a as real, b as real);
  }

  lemma DivideMonotone(a: real, b: real)
    requires a <= b
    ensures a / 100.0 <= b / 100.0
  {
  }

  /** A number with at most two decimals. */
  predicate OnGrid(x: real) {
    (x * 100.0).Floor as real == x * 100.0
  }

  lemma Round2OnGrid(x: real)
    requires OnGrid(x)
    ensures Round2(x) == x
  {
    var m := (x * 100.0).Floor;
    assert (x * 100.0 + 0.5).Floor == m;
  }

  /** The timeslice for `contenders` queued processes: `quantum/contenders`
      rounded to two decimals when that exceeds `granularity`, else
      `granularity` itself. */
  function Timeslice(cfg: Config, contenders: int): real
    requires contenders > 0
  {
    var share := cfg.quantum / contenders as real;
    if share > cfg.granularity then Round2(share) else cfg.granularity
  }

  /** Up to the rounding the timeslice never falls below `granularity`; when
      `granularity` has at most two decimals it never does at all. */
  lemma TimesliceFloor(cfg: Config, contenders: int)
    requires contenders > 0
    ensures var share := cfg.quantum / contenders as real;
      var ts := Timeslice(cfg, contenders);
      (share <= cfg.granularity ==> ts == cfg.granularity) &&
      (share > cfg.granularity ==> share - 0.005 < ts <= share + 0.005) &&
      ts > cfg.granularity - 0.005 &&
      (OnGrid(cfg.granularity) ==> ts >= cfg.granularity) &&
      (cfg.granularity >= 0.0 ==> ts >= 0.0)
  {
    var share := cfg.quantum / contenders as real;
    if share > cfg.granularity {
      Round2Monotone(cfg.granularity, share);
      if OnGrid(cfg.granularity) { Round2OnGrid(cfg.granularity); }
      if cfg.granularity >= 0.0 {
        Round2Monotone(0.0, share);
        Round2OnGrid(0.0);
      }
    }
  }

  /** With the default arguments a timeslice is never below half a time unit,
      and it shrinks to exactly 0.5 once twenty or more processes compete. */
  lemma DefaultTimeslice(contenders: int)
    requires contenders > 0
    ensures Timeslice(DefaultConfig(), contenders) >= 0.5
    ensures contenders >= 20 ==> Timeslice(DefaultConfig(), contenders) == 0.5
  {
    assert OnGrid(0.5) by { assert 0.5 * 100.0 == 50.0; }
    TimesliceFloor(DefaultConfig(), contenders);
    if contenders >= 20 {
      assert 10.0 / contenders as real <= 0.5;
    }
  }

  // ---------------------------------------------------------------------
  // The state invariant

  /** Names whose process is in the ready queue: admitted and not finished. */
  function Active(info: map<string, Record>): set<string> {
    set k | k in info && info[k].entered && !info[k].ended
  }

  /** Names still in `processes`. */
  function Unfinished(info: map<string, Record>): set<string> {
    set k | k in info && !info[k].ended
  }

  /** Flag consistency of one row: a process ends only after it was admitted
      and dispatched and its burst was used up; it starts only once admitted. */
  predicate RecordOk(r: Record) {
    (r.ended ==> r.entered && r.started && r.burst <= 0.0) && (r.started ==> r.entered)
  }

  /** What holds between ticks: the counter and the BST order of the queue,
      one queue node per admitted unfinished process and none for any other
      name, `processes` naming exactly the unfinished processes, and the
      table's key order listing every key once. */
  ghost predicate Inv(s: Sim) {
    Valid(s.queue) &&
    (forall i, j :: 0 <= i < j < |s.order| ==> s.order[i] != s.order[j]) &&
    (forall k :: k in s.info <==> k in s.order) &&
    s.processes == Unfinished(s.info) &&
    Pids(InOrder(s.queue.root)) == multiset(Active(s.info)) &&
    (forall k :: k in s.info ==> RecordOk(s.info[k]))
  }

  /** Clock facts: an admitted process arrived no later than now, and a
      started process has a non-negative response time. */
  ghost predicate Timely(s: Sim) {
    forall k :: k in s.info ==>
      (s.info[k].entered ==> s.info[k].arrival <= s.time) &&
      (s.info[k].started ==> s.info[k].response >= 0.0)
  }

  /** A row as `read_input` builds it: nothing admitted, started or ended,
      all counters zero. */
  function NewRecord(priority: int, burst: real, arrival: real): Record {
    Record(priority, burst, arrival, false, false, false, 0.0, 0.0, 0)
  }

  /** The state on entry to the loop: time 0, an empty queue, and every
      name of the table in `processes`. */
  function Initial(info: map<string, Record>, order: seq<string>): Sim {
    Sim(0.0, Empty(), info.Keys, info, order)
  }

  lemma InitialInv(info: map<string, Record>, order: seq<string>)
    requires forall k :: k in info ==> info[k] == NewRecord(info[k].priority, info[k].burst, info[k].arrival)
    requires forall i, j :: 0 <= i < j < |order| ==> order[i] != order[j]
    requires forall k :: k in info <==> k in order
    ensures Inv(Initial(info, order)) && Timely(Initial(info, order))
  {
    assert Active(info) == {};
    assert Unfinished(info) == info.Keys;
  }

  // ---------------------------------------------------------------------
  // Admission

  /** A process is admitted once it has arrived, and only once. */
  predicate Eligible(r: Record, time: real) {
    time >= r.arrival && !r.entered
  }

  /** The key a newly admitted process starts with: 0 for an empty queue,
      otherwise the key at the root, so that it lands mid-queue. */
  function StartKey(q: Rbt): real {
    if q.root.Nil? then 0.0 else q.root.key
  }

  /** The root's key lies between the smallest and the largest key queued. */
  lemma StartKeyWithinQueue(q: Rbt)
    requires Valid(q) && q.root.Node?
    ensures var s := InOrder(q.root);
      |s| > 0 && s[0].key <= StartKey(q) <= s[|s| - 1].key
  {
    var s := InOrder(q.root);
    var t := q.root;
    assert s == InOrder(t.left) + [EntryOf(t)] + InOrder(t.right);
    var i := |InOrder(t.left)|;
    assert s[i] == EntryOf(t);
  }

  /** Admit one process: mark it as having entered the queue and insert it
      with the start key. */
  function AdmitOne(s: Sim, name: string): (r: Sim)
    requires name in s.info
    ensures r.info.Keys == s.info.Keys
  {
    var rec := s.info[name];
    s.(queue := Insert(s.queue, StartKey(s.queue), name),
       info := s.info[name := rec.(entered := true)])
  }

  /** The admission loop over the keys of `process_info`, in order. */
  function AdmitFrom(s: Sim, keys: seq<string>): Sim
    requires forall i :: 0 <= i < |keys| ==> keys[i] in s.info
    decreases |keys|
  {
    if keys == [] then s
    else
      var s' := if Eligible(s.info[keys[0]], s.time) then AdmitOne(s, keys[0]) else s;
      AdmitFrom(s', keys[1..])
  }

  lemma AddToActive(info: map<string, Record>, name: string)
    requires name in info && !info[name].entered && !info[name].ended
    ensures var info' := info[name := info[name].(entered := true)];
      Active(info') == Active(info) + {name} && name !in Active(info) &&
      multiset(Active(info')) == multiset(Active(info)) + multiset{name} &&
      Unfinished(info') == Unfinished(info)
  {
    var info' := info[name := info[name].(entered := true)];
    assert Active(info') == Active(info) + {name};
    assert Unfinished(info') == Unfinished(info);
  }

  /** Admitting an eligible process keeps the invariant: its one queue node
      joins the queue as it joins the admitted unfinished processes. */
  lemma AdmitOneKeepsInv(s: Sim, name: string)
    requires Inv(s) && name in s.info && Eligible(s.info[name], s.time)
    ensures Inv(AdmitOne(s, name))
    ensures Timely(s) ==> Timely(AdmitOne(s, name))
    ensures var q := InOrder(s.queue.root);
      var k := StartKey(s.queue);
      var u := RbInsert.UpperBound(q, k);
      InOrder(AdmitOne(s, name).queue.root) == q[..u] + [Entry(k, name)] + q[u..]
    ensures s.queue.root.Nil? ==> InOrder(AdmitOne(s, name).queue.root) == [Entry(0.0, name)]
  {
    var r := AdmitOne(s, name);
    InsertKeepsValid(s.queue, StartKey(s.queue), name);
    assert RecordOk(s.info[name]);
    AddToActive(s.info, name);
  }

  /** After the admission loop every arrived, not yet admitted process has
      been admitted, no other row has changed, and the invariant holds. */
  lemma {:induction false} AdmitFromSpec(s: Sim, keys: seq<string>)
    requires Inv(s)
    requires forall i :: 0 <= i < |keys| ==> keys[i] in s.info
    ensures var r := AdmitFrom(s, keys);
      Inv(r) && (Timely(s) ==> Timely(r)) &&
      r.time == s.time && r.order == s.order && r.processes == s.processes &&
      r.info.Keys == s.info.Keys &&
      forall k :: k in s.info ==>
        r.info[k] == if k in keys && Eligible(s.info[k], s.time) then s.info[k].(entered := true) else s.info[k]
    decreases |keys|
  {
    if keys != [] {
      var name := keys[0];
      var s' := if Eligible(s.info[name], s.time) then AdmitOne(s, name) else s;
      if Eligible(s.info[name], s.time) { AdmitOneKeepsInv(s, name); }
      AdmitFromSpec(s', keys[1..]);
      forall k | k in s.info
        ensures AdmitFrom(s, keys).info[k]
          == if k in keys && Eligible(s.info[k], s.time) then s.info[k].(entered := true) else s.info[k]
      {
        assert k in keys <==> k == name || k in keys[1..];
      }
    }
  }

  /** When nothing was eligible the admission loop changes nothing. */
  lemma {:induction false} AdmitNone(s: Sim, keys: seq<string>)
    requires forall i :: 0 <= i < |keys| ==> keys[i] in s.info
    requires forall i :: 0 <= i < |keys| ==> !Eligible(s.info[keys[i]], s.time)
    ensures AdmitFrom(s, keys) == s
    decreases |keys|
  {
    if keys != [] {
      AdmitNone(s, keys[1..]);
    }
  }

  // ---------------------------------------------------------------------
  // Running the leftmost process

  /** On its first dispatch a process records its response time. */
  function FirstDispatch(r: Record, time: real): Record {
    if !r.started then r.(response := time - r.arrival, started := true) else r
  }

  /** Every admitted unfinished process other than `name` waits `ts` more. */
  function Accrue(info: map<string, Record>, name: string, ts: real): (r: map<string, Record>)
    ensures r.Keys == info.Keys
  {
    map k | k in info :: if k != name && info[k].entered && !info[k].ended
      then info[k].(waiting := info[k].waiting + ts) else info[k]
  }

  lemma PidsMember(s: seq<Entry>, i: int)
    requires 0 <= i < |s|
    ensures s[i].pid in Pids(s)
  {
    if i > 0 { PidsMember(s[1..], i - 1); }
  }

  /** A non-empty queue counts at least one element, and its front node
      belongs to an admitted unfinished process of the table. */
  lemma FrontIsActive(s: Sim)
    requires Inv(s) && s.queue.root.Node?
    ensures s.queue.nElements > 0
    ensures Front(s.queue.root).pid in Active(s.info)
  {
    FrontIsMinimum(s.queue.root);
    SizeIsLength(s.queue.root);
    PidsMember(InOrder(s.queue.root), 0);
  }

  /** The table after the dispatched process `name` has run for `ts`: its
      first response is recorded, every other queued process waits `ts`
      more, and its remaining burst drops by `ts`. */
  function Charge(info: map<string, Record>, name: string, time: real, ts: real): map<string, Record>
    requires name in info
  {
    var info2 := Accrue(info[name := FirstDispatch(info[name], time)], name, ts);
    info2[name := info2[name].(burst := info2[name].burst - ts)]
  }

  /** One dispatch: remove the leftmost node, charge the timeslice, then
      finish or requeue the process, and advance the clock. */
  function Run(cfg: Config, s: Sim): Sim
    requires Inv(s) && s.queue.root.Node?
  {
    FrontIsActive(s);
    var ts := Timeslice(cfg, s.queue.nElements);
    var e := Front(s.queue.root);
    var q1 := Delete(s.queue, Leftmost(s.queue.root).route);
    Conclude(s, q1, Charge(s.info, e.pid, s.time, ts), e.pid, e.key, ts)
  }

  /** The end of a dispatch of `name`, which ran from key `vruntime` for
      `ts`: a process whose burst is used up is marked finished and leaves
      `processes`; any other goes back into the queue with its key advanced
      by `ts` times its weight, and counts a preemption when the new
      leftmost node is not its own. The clock advances by `ts`. */
  function Conclude(s: Sim, q1: Rbt, info: map<string, Record>, name: string, vruntime: real, ts: real): Sim
    requires name in info
  {
    var rec := info[name];
    if rec.burst <= 0.0 && !rec.ended then
      Sim(s.time + ts, q1, s.processes - {name}, info[name := rec.(ended := true)], s.order)
    else
      var q2 := Insert(q1, Advance(vruntime, ts, rec.priority), name);
      var next := Leftmost(q2.root);
      var switched := next.NilHandle? || SubtreeAt(q2.root, next.route).pid != name;
      Sim(s.time + ts, q2, s.processes,
          info[name := rec.(preempted := if switched then rec.preempted + 1 else rec.preempted)],
          s.order)
  }

  /** One pass of the `while processes` loop: admission, then an idle step
      of `timestep` when the queue is empty, else one dispatch. */
  function Tick(cfg: Config, s: Sim): Sim
    requires Inv(s)
  {
    AdmitFromSpec(s, s.order);
    var a := AdmitFrom(s, s.order);
    if a.queue.root.Nil? then a.(time := a.time + cfg.timestep) else Run(cfg, a)
  }

  lemma SameFlags(info: map<string, Record>, info': map<string, Record>)
    requires info'.Keys == info.Keys
    requires forall k :: k in info ==> info'[k].entered == info[k].entered && info'[k].ended == info[k].ended
    ensures Active(info') == Active(info) && Unfinished(info') == Unfinished(info)
  {
  }

  lemma EndOne(info: map<string, Record>, name: string, r: Record)
    requires name in info && info[name].entered && !info[name].ended && r.ended
    ensures var info' := info[name := r];
      Active(info') == Active(info) - {name} && Unfinished(info') == Unfinished(info) - {name} &&
      multiset(Active(info')) == multiset(Active(info)) - multiset{name}
  {
    var info' := info[name := r];
    assert Active(info') == Active(info) - {name};
    assert Unfinished(info') == Unfinished(info) - {name};
  }

  /** What `Charge` does to each row: the dispatched row gets its first
      response and loses `ts` of burst, every other admitted unfinished row
      waits `ts` more, and no admission or finish flag changes. */
  lemma ChargeRows(info: map<string, Record>, name: string, time: real, ts: real)
    requires name in info
    ensures var c := Charge(info, name, time, ts);
      c.Keys == info.Keys &&
      c[name] == FirstDispatch(info[name], time).(burst := info[name].burst - ts) &&
      (forall k :: k in info && k != name ==>
        c[k] == if info[k].entered && !info[k].ended then info[k].(waiting := info[k].waiting + ts) else info[k]) &&
      Active(c) == Active(info) && Unfinished(c) == Unfinished(info)
  {
    var c := Charge(info, name, time, ts);
    SameFlags(info, c);
  }

  /** The facts about the table and the shrunken queue that both ends of a
      dispatch start from. */
  ghost predicate Dispatched(s: Sim, q1: Rbt, info: map<string, Record>, name: string) {
    Inv(s) && Valid(q1) && name in Active(s.info) &&
    Pids(InOrder(q1.root)) + multiset{name} == Pids(InOrder(s.queue.root)) &&
    info.Keys == s.info.Keys && Active(info) == Active(s.info) && Unfinished(info) == Unfinished(s.info) &&
    info[name].started && (forall k :: k in info ==> RecordOk(info[k]))
  }

  lemma FinishKeepsInv(s: Sim, q1: Rbt, info: map<string, Record>, name: string, time: real)
    requires Dispatched(s, q1, info, name) && info[name].burst <= 0.0
    ensures Inv(Sim(time, q1, s.processes - {name}, info[name := info[name].(ended := true)], s.order))
  {
    EndOne(info, name, info[name].(ended := true));
  }

  lemma RequeueKeepsInv(s: Sim, q1: Rbt, info: map<string, Record>, name: string, time: real,
                        key: real, preempted: nat)
    requires Dispatched(s, q1, info, name)
    ensures Inv(Sim(time, Insert(q1, key, name), s.processes,
                    info[name := info[name].(preempted := preempted)], s.order))
  {
    InsertKeepsValid(q1, key, name);
    SameFlags(info, info[name := info[name].(preempted := preempted)]);
  }

  lemma ConcludeFinishKeepsInv(s: Sim, q1: Rbt, info: map<string, Record>, name: string, vruntime: real, ts: real)
    requires Dispatched(s, q1, info, name) && info[name].burst <= 0.0 && !info[name].ended
    ensures Inv(Conclude(s, q1, info, name, vruntime, ts))
  {
    FinishKeepsInv(s, q1, info, name, s.time + ts);
  }

  lemma ConcludeRequeueKeepsInv(s: Sim, q1: Rbt, info: map<string, Record>, name: string, vruntime: real, ts: real)
    requires Dispatched(s, q1, info, name) && !(info[name].burst <= 0.0 && !info[name].ended)
    ensures Inv(Conclude(s, q1, info, name, vruntime, ts))
  {
    var rec := info[name];
    var r := Conclude(s, q1, info, name, vruntime, ts);
    RequeueKeepsInv(s, q1, info, name, s.time + ts, Advance(vruntime, ts, rec.priority),
      r.info[name].preempted);
    assert r.info == info[name := rec.(preempted := r.info[name].preempted)];
  }

  /** `Run` keeps the invariant: the dispatched process leaves the queue and
      comes back exactly when it has not finished, and with it the set of
      admitted unfinished processes. */
  lemma RunKeepsInv(cfg: Config, s: Sim)
    requires Inv(s) && s.queue.root.Node?
    ensures Inv(Run(cfg, s))
  {
    FrontIsActive(s);
    var ts := Timeslice(cfg, s.queue.nElements);
    var e := Front(s.queue.root);
    var route := Leftmost(s.queue.root).route;
    var q1 := Delete(s.queue, route);
    DeleteKeepsValid(s.queue, route);
    var info := Charge(s.info, e.pid, s.time, ts);
    ChargeRows(s.info, e.pid, s.time, ts);
    assert Dispatched(s, q1, info, e.pid);
    if info[e.pid].burst <= 0.0 && !info[e.pid].ended {
      ConcludeFinishKeepsInv(s, q1, info, e.pid, e.key, ts);
    } else {
      ConcludeRequeueKeepsInv(s, q1, info, e.pid, e.key, ts);
    }
  }

  /** With a non-negative `granularity` the clock never goes back, so `Run`
      keeps the clock facts. */
  lemma RunKeepsTimely(cfg: Config, s: Sim)
    requires Inv(s) && s.queue.root.Node? && Timely(s) && cfg.granularity >= 0.0
    ensures Timely(Run(cfg, s))
  {
    FrontIsActive(s);
    var ts := Timeslice(cfg, s.queue.nElements);
    TimesliceFloor(cfg, s.queue.nElements);
    var e := Front(s.queue.root);
    var q1 := Delete(s.queue, Leftmost(s.queue.root).route);
    var info := Charge(s.info, e.pid, s.time, ts);
    ChargeRows(s.info, e.pid, s.time, ts);
    assert s.info[e.pid].entered;
    forall k | k in info
      ensures (info[k].entered ==> info[k].arrival <= s.time) && (info[k].started ==> info[k].response >= 0.0)
    {
      if k == e.pid {
        assert info[k].arrival == s.info[k].arrival;
      } else {
        assert info[k].arrival == s.info[k].arrival && info[k].entered == s.info[k].entered;
        assert info[k].started == s.info[k].started && info[k].response == s.info[k].response;
      }
    }
    ConcludeTimely(s, q1, info, e.pid, e.key, ts);
  }

  /** The end of a dispatch keeps the clock facts of the charged table, as
      the clock only moves forward by a non-negative `ts`. */
  lemma ConcludeTimely(s: Sim, q1: Rbt, info: map<string, Record>, name: string, vruntime: real, ts: real)
    requires name in info && ts >= 0.0
    requires forall k :: k in info ==>
      (info[k].entered ==> info[k].arrival <= s.time) && (info[k].started ==> info[k].response >= 0.0)
    ensures Timely(Conclude(s, q1, info, name, vruntime, ts))
  {
    ConcludeRows(s, q1, info, name, vruntime, ts);
  }

  /** What `Conclude` does to the table: only the dispatched row's finish
      flag and preemption count can change, and the clock advances by `ts`. */
  lemma ConcludeRows(s: Sim, q1: Rbt, info: map<string, Record>, name: string, vruntime: real, ts: real)
    requires name in info
    ensures var r := Conclude(s, q1, info, name, vruntime, ts);
      r.time == s.time + ts && r.order == s.order && r.info.Keys == info.Keys &&
      (forall k :: k in info && k != name ==> r.info[k] == info[k]) &&
      r.info[name].(ended := info[name].ended, preempted := info[name].preempted) == info[name] &&
      (r.info[name].ended <==> info[name].ended || info[name].burst <= 0.0)
  {
  }

  /** A dispatch runs the process with the smallest key for one timeslice:
      its first dispatch records `time - arrival` as its response, its burst
      drops by the timeslice, its waiting time stays, and every other
      admitted unfinished process waits one timeslice more. */
  lemma RunDispatch(cfg: Config, s: Sim)
    requires Inv(s) && s.queue.root.Node?
    ensures s.queue.nElements > 0 && Front(s.queue.root).pid in s.info
    ensures var e := Front(s.queue.root);
      var ts := Timeslice(cfg, s.queue.nElements);
      var r := Run(cfg, s);
      var was := s.info[e.pid];
      e in InOrder(s.queue.root) &&
      (forall e' :: e' in InOrder(s.queue.root) ==> e.key <= e'.key) &&
      r.time == s.time + ts && r.order == s.order && r.info.Keys == s.info.Keys &&
      r.info[e.pid].started &&
      r.info[e.pid].response == (if was.started then was.response else s.time - was.arrival) &&
      r.info[e.pid].waiting == was.waiting &&
      r.info[e.pid].burst == was.burst - ts &&
      r.info[e.pid].priority == was.priority && r.info[e.pid].arrival == was.arrival &&
      forall k :: k in s.info && k != e.pid ==>
        r.info[k] == if s.info[k].entered && !s.info[k].ended
          then s.info[k].(waiting := s.info[k].waiting + ts) else s.info[k]
  {
    FrontIsActive(s);
    FrontIsMinimum(s.queue.root);
    var e := Front(s.queue.root);
    var ts := Timeslice(cfg, s.queue.nElements);
    var q1 := Delete(s.queue, Leftmost(s.queue.root).route);
    ChargeRows(s.info, e.pid, s.time, ts);
    ConcludeRows(s, q1, Charge(s.info, e.pid, s.time, ts), e.pid, e.key, ts);
  }

  /** Each name occurs at most once in a multiset built from a set. */
  lemma SingleInSet(a: set<string>, m: multiset<string>, name: string)
    requires name in a && m + multiset{name} == multiset(a)
    ensures name !in m
  {
    assert multiset(a)[name] == 1;
  }

  lemma PidsAbsent(s: seq<Entry>, name: string)
    requires name !in Pids(s)
    ensures forall e :: e in s ==> e.pid != name
  {
    forall e | e in s ensures e.pid != name {
      var i :| 0 <= i < |s| && s[i] == e;
      PidsMember(s, i);
    }
  }

  /** The preemption test after requeueing `name` with `key` into a queue
      that holds no node of it: the new leftmost node belongs to another
      process exactly when some other queued process has a key no larger
      than `key`, since ties go right. */
  lemma PreemptionRule(q1: Rbt, key: real, name: string)
    requires Valid(q1) && name !in Pids(InOrder(q1.root))
    ensures var q2 := Insert(q1, key, name);
      var h := Leftmost(q2.root);
      (h.NilHandle? || SubtreeAt(q2.root, h.route).pid != name) <==> Overtaken(q2, name, key)
  {
    var s1 := InOrder(q1.root);
    var u := RbInsert.UpperBound(s1, key);
    InsertKeepsValid(q1, key, name);
    var q2 := Insert(q1, key, name);
    var s2 := InOrder(q2.root);
    assert s2 == s1[..u] + [Entry(key, name)] + s1[u..];
    PidsAbsent(s1, name);
    assert q2.root.Node?;
    FrontIsMinimum(q2.root);
    if u > 0 {
      assert s2[0] == s1[0];
    } else {
      assert s2[0] == Entry(key, name);
      forall e | e in s2 && e.pid != name ensures key < e.key {
        assert e in s1[u..];
        var j :| 0 <= j < |s1| && s1[j] == e;
        assert key < s1[0].key;
        assert s1[0].key <= s1[j].key;
      }
    }
  }

  /** A positive quantum and granularity do not keep the timeslice positive:
      a share of 0.004 exceeds a granularity of 0.001 and so is rounded, to
      0. A loop with such a slice never consumes any burst. */
  lemma TimesliceCanVanish()
    ensures var cfg := Config(0.004, 0.001, 0.05);
      cfg.quantum > 0.0 && cfg.granularity > 0.0 && Timeslice(cfg, 1) == 0.0
  {
    assert (0.004 * 100.0 + 0.5).Floor == 0;
  }

  /** For a nice value of at least -20 the weight is positive, so running
      for a positive timeslice strictly increases the key. */
  lemma KeyGrows(key: real, ts: real, priority: int)
    requires ts > 0.0 && priority >= -20
    ensures Advance(key, ts, priority) > key
  {
    assert Weight(priority) > 0.0;
    assert ts * Weight(priority) > 0.0;
  }

  /** Some queued process other than `name` has a key no larger than `key`. */
  ghost predicate Overtaken(q: Rbt, name: string, key: real) {
    exists e :: e in InOrder(q.root) && e.pid != name && e.key <= key
  }

  /** How a dispatch of `name` ends, given the `processes` set before it,
      the preemption count before it, the burst left after it, and the key
      it is requeued with: it finishes exactly when the burst is used up and
      then leaves `processes` and the queue with its preemption count
      unchanged; otherwise it is back in the queue under `key`, `processes`
      is unchanged, and it counts a preemption exactly when another queued
      process has a key no larger than `key`. */
  ghost predicate Outcome(r: Sim, processes: set<string>, name: string, preempted: nat, burst: real, key: real) {
    name in r.info &&
    (r.info[name].ended <==> burst <= 0.0) &&
    (r.info[name].ended ==>
      name !in r.processes && name !in Pids(InOrder(r.queue.root)) && r.info[name].preempted == preempted) &&
    (!r.info[name].ended ==>
      r.processes == processes && Entry(key, name) in InOrder(r.queue.root) &&
      r.info[name].preempted == preempted + if Overtaken(r.queue, name, key) then 1 else 0)
  }

  lemma ConcludeFinish(s: Sim, q1: Rbt, info: map<string, Record>, name: string, vruntime: real, ts: real)
    requires name in info && !info[name].ended && info[name].burst <= 0.0
    requires name !in Pids(InOrder(q1.root))
    ensures Outcome(Conclude(s, q1, info, name, vruntime, ts), s.processes, name, info[name].preempted,
                    info[name].burst, Advance(vruntime, ts, info[name].priority))
  {
  }

  lemma ConcludeRequeue(s: Sim, q1: Rbt, info: map<string, Record>, name: string, vruntime: real, ts: real)
    requires name in info && !info[name].ended && !(info[name].burst <= 0.0)
    requires Valid(q1) && name !in Pids(InOrder(q1.root))
    ensures Outcome(Conclude(s, q1, info, name, vruntime, ts), s.processes, name, info[name].preempted,
                    info[name].burst, Advance(vruntime, ts, info[name].priority))
  {
    var key := Advance(vruntime, ts, info[name].priority);
    InsertKeepsValid(q1, key, name);
    PreemptionRule(q1, key, name);
  }

  /** The end of a dispatch: the process finishes exactly when its burst
      minus the timeslice is used up, and otherwise is requeued with its key
      advanced by the timeslice times its weight (see `Outcome`). */
  lemma RunFinishOrRequeue(cfg: Config, s: Sim)
    requires Inv(s) && s.queue.root.Node?
    ensures s.queue.nElements > 0 && Front(s.queue.root).pid in s.info
    ensures var e := Front(s.queue.root);
      var ts := Timeslice(cfg, s.queue.nElements);
      var was := s.info[e.pid];
      Outcome(Run(cfg, s), s.processes, e.pid, was.preempted, was.burst - ts, Advance(e.key, ts, was.priority))
  {
    FrontIsActive(s);
    var e := Front(s.queue.root);
    var ts := Timeslice(cfg, s.queue.nElements);
    var q1 := Delete(s.queue, Leftmost(s.queue.root).route);
    DequeueFacts(s);
    var info := Charge(s.info, e.pid, s.time, ts);
    ChargeOwnRow(s.info, e.pid, s.time, ts);
    assert Run(cfg, s) == Conclude(s, q1, info, e.pid, e.key, ts);
    EndOfRun(s, q1, info, e.pid, e.key, ts, s.info[e.pid]);
  }

  /** Removing the front node leaves a valid queue without the dispatched
      process. */
  lemma DequeueFacts(s: Sim)
    requires Inv(s) && s.queue.root.Node?
    ensures var q1 := Delete(s.queue, Leftmost(s.queue.root).route);
      Valid(q1) && Front(s.queue.root).pid !in Pids(InOrder(q1.root)) &&
      Front(s.queue.root).pid in s.info && !s.info[Front(s.queue.root).pid].ended
  {
    FrontIsActive(s);
    var route := Leftmost(s.queue.root).route;
    var q1 := Delete(s.queue, route);
    DeleteKeepsValid(s.queue, route);
    SingleInSet(Active(s.info), Pids(InOrder(q1.root)), Front(s.queue.root).pid);
  }

  lemma ChargeOwnRow(info: map<string, Record>, name: string, time: real, ts: real)
    requires name in info
    ensures var c := Charge(info, name, time, ts);
      name in c && c[name].ended == info[name].ended && c[name].burst == info[name].burst - ts &&
      c[name].priority == info[name].priority && c[name].preempted == info[name].preempted
  {
    ChargeRows(info, name, time, ts);
  }

  lemma EndOfRun(s: Sim, q1: Rbt, info: map<string, Record>, name: string, vruntime: real, ts: real, was: Record)
    requires name in info && !info[name].ended
    requires info[name].burst == was.burst - ts && info[name].priority == was.priority
    requires info[name].preempted == was.preempted
    requires Valid(q1) && name !in Pids(InOrder(q1.root))
    ensures Outcome(Conclude(s, q1, info, name, vruntime, ts), s.processes, name, was.preempted,
                    was.burst - ts, Advance(vruntime, ts, was.priority))
  {
    if info[name].burst <= 0.0 {
      ConcludeFinish(s, q1, info, name, vruntime, ts);
    } else {
      ConcludeRequeue(s, q1, info, name, vruntime, ts);
    }
  }

  // ---------------------------------------------------------------------
  // The loop

  /** A tick keeps the invariant; with non-negative `granularity` and
      `timestep` it keeps the clock facts as well. */
  lemma TickKeepsInv(cfg: Config, s: Sim)
    requires Inv(s)
    ensures Inv(Tick(cfg, s))
    ensures Timely(s) && cfg.granularity >= 0.0 && cfg.timestep >= 0.0 ==> Timely(Tick(cfg, s))
  {
    AdmitFromSpec(s, s.order);
    var a := AdmitFrom(s, s.order);
    if a.queue.root.Node? {
      RunKeepsInv(cfg, a);
      if Timely(s) && cfg.granularity >= 0.0 { RunKeepsTimely(cfg, a); }
    }
  }

  /** When the queue is still empty after admission, nobody was admitted:
      the tick only advances the clock by `timestep`. */
  lemma IdleTick(cfg: Config, s: Sim)
    requires Inv(s) && AdmitFrom(s, s.order).queue.root.Nil?
    ensures Tick(cfg, s) == s.(time := s.time + cfg.timestep)
  {
    AdmitFromSpec(s, s.order);
    var a := AdmitFrom(s, s.order);
    assert Pids(InOrder(a.queue.root)) == multiset{};
    forall k ensures k !in Active(a.info) {
      assert multiset(Active(a.info))[k] == 0;
    }
    forall i | 0 <= i < |s.order| ensures !Eligible(s.info[s.order[i]], s.time) {
      var k := s.order[i];
      assert RecordOk(s.info[k]);
      assert k !in Active(a.info);
    }
    AdmitNone(s, s.order);
  }

  /** The `while processes` loop, cut off after `fuel` ticks. When it stops
      on its own every process in the table has finished. */
  method Simulate(cfg: Config, s0: Sim, fuel: nat) returns (s: Sim, done: bool)
    requires Inv(s0)
    ensures Inv(s)
    ensures done <==> s.processes == {}
    ensures done ==> forall k :: k in s.info ==> s.info[k].ended && s.info[k].entered && s.info[k].started
    ensures Timely(s0) && cfg.granularity >= 0.0 && cfg.timestep >= 0.0 ==> Timely(s)
    ensures Timely(s0) && cfg.granularity >= 0.0 && cfg.timestep >= 0.0 && done ==>
      forall k :: k in s.info ==> s.info[k].response >= 0.0
  {
    s := s0;
    var n := fuel;
    while s.processes != {} && n > 0
      invariant Inv(s)
      invariant Timely(s0) && cfg.granularity >= 0.0 && cfg.timestep >= 0.0 ==> Timely(s)
      decreases n
    {
      TickKeepsInv(cfg, s);
      s := Tick(cfg, s);
      n := n - 1;
    }
    done := s.processes == {};
    if done {
      forall k | k in s.info ensures s.info[k].ended && s.info[k].entered && s.info[k].started {
        assert k !in Unfinished(s.info);
        assert RecordOk(s.info[k]);
      }
    }
  }
}

=== FILE: rb_delete.dfy ===
/** `delete` and `fix_delete`. A node with at most one real child is spliced
    out directly; a node with two real children receives its in-order
    successor's key and payload and the successor is spliced out instead.
    When the spliced node was black, `fix_delete` runs on the child that took
    its place. The repair loop runs only while x is a real black node, so it
    is skipped whenever that child is the sentinel, and black heights are
    not kept equal. */
module RbDelete {
  import opened RbTree
  import opened RbInsert

  predicate IsBlackNode(t: Tree) {
    t.Node? && t.color == Black
  }

  /** Walk left links down from t, pushing each node passed as an ancestor
      frame: the leftmost node of t and its ancestors. */
  function LeftmostZip(t: Tree, acc: seq<Frame>): (r: (Tree, seq<Frame>))
    requires t.Node?
    ensures r.0.Node? && r.0.left.Nil?
    decreases t
  {
    if t.left.Nil? then (t, acc)
    else LeftmostZip(t.left, [Frame(L, t.color, t.key, t.pid, t.right)] + acc)
  }

  lemma {:induction false} LeftmostZipSplits(t: Tree, acc: seq<Frame>)
    requires t.Node?
    ensures var yp := LeftmostZip(t, acc);
      yp.0.left.Nil? && Before(yp.1) == Before(acc) && EntryOf(yp.0) == InOrder(t)[0] &&
      InOrder(yp.0.right) + After(yp.1) == InOrder(t)[1..] + After(acc)
    decreases t
  {
    if t.left.Node? {
      var f := Frame(L, t.color, t.key, t.pid, t.right);
      assert ([f] + acc)[0] == f && ([f] + acc)[1..] == acc;
      LeftmostZipSplits(t.left, [f] + acc);
      var sl := InOrder(t.left);
      assert InOrder(t) == sl + [EntryOf(t)] + InOrder(t.right);
      assert InOrder(t)[0] == sl[0];
      assert InOrder(t)[1..] == sl[1..] + [EntryOf(t)] + InOrder(t.right);
    }
  }

  /** The state `delete` hands to `fix_delete`: the child x that took the
      spliced node's place, x's ancestors, and the spliced node's colour. */
  datatype Cut = Cut(x: Tree, path: seq<Frame>, removed: Color)

  /** The splicing part of `delete` for the node at `route`. */
  function Splice(t: Tree, route: seq<Dir>): Cut
    requires ValidRoute(t, route)
  {
    var (z, path) := Unzip(t, route);
    if z.left.Nil? || z.right.Nil? then
      Cut(if z.left.Node? then z.left else z.right, path, z.color)
    else
      var (y, inner) := LeftmostZip(z.right, []);
      Cut(y.right, inner + [Frame(R, z.color, y.key, y.pid, z.left)] + path, y.color)
  }

  /** Removing one element from the middle of a concatenation. */
  lemma Excise<T>(b: seq<T>, l: seq<T>, e: T, r: seq<T>, a: seq<T>)
    ensures var s := b + l + [e] + r + a;
      var i := |b| + |l|;
      i < |s| && s[i] == e && s[..i] + s[i + 1..] == b + (l + r) + a &&
      (r != [] ==> s[i + 1] == r[0])
  {
    var s := b + l + [e] + r + a;
    var i := |b| + |l|;
    assert s[..i] == b + l;
    assert s[i + 1..] == r + a;
  }

  /** Cutting the leftmost node out of t leaves the rest of t's entries in
      order; the cut node holds the first entry. */
  lemma LeftmostRest(t: Tree)
    requires t.Node?
    ensures var yi := LeftmostZip(t, []);
      |InOrder(t)| > 0 && EntryOf(yi.0) == InOrder(t)[0] &&
      InOrder(Plug(yi.0.right, yi.1)) == InOrder(t)[1..]
  {
    var yi := LeftmostZip(t, []);
    LeftmostZipSplits(t, []);
    PlugInOrder(yi.0.right, yi.1);
    assert Before([]) == [] && After([]) == [];
    EmptyEnds(Before(yi.1), InOrder(yi.0.right), After(yi.1), InOrder(t)[1..], After([]));
  }

  lemma EmptyEnds<T>(b: seq<T>, x: seq<T>, a: seq<T>, y: seq<T>, e: seq<T>)
    requires b == [] && e == [] && x + a == y + e
    ensures b + x + a == y
  {
    assert b + x == x;
    assert y + e == y;
  }

  lemma PlugOneMore(x: Tree, inner: seq<Frame>, f: Frame, path: seq<Frame>)
    ensures Plug(x, inner + [f] + path) == Plug(Attach(f, Plug(x, inner)), path)
  {
    assert inner + [f] + path == inner + ([f] + path);
    PlugConcat(x, inner, [f] + path);
    assert ([f] + path)[0] == f && ([f] + path)[1..] == path;
  }

  /** Splicing a node with two real children plugs the successor's pair into
      the node's place and its right subtree into the successor's. */
  lemma SpliceTwoChildren(z: Tree, path: seq<Frame>)
    requires z.Node? && z.left.Node? && z.right.Node?
    ensures var yi := LeftmostZip(z.right, []);
      var f := Frame(R, z.color, yi.0.key, yi.0.pid, z.left);
      var u := Attach(f, Plug(yi.0.right, yi.1));
      Plug(yi.0.right, yi.1 + [f] + path) == Plug(u, path) &&
      InOrder(u) == InOrder(z.left) + InOrder(z.right) && EntryOf(u) == InOrder(z.right)[0]
  {
    var yi := LeftmostZip(z.right, []);
    var f := Frame(R, z.color, yi.0.key, yi.0.pid, z.left);
    LeftmostRest(z.right);
    PlugOneMore(yi.0.right, yi.1, f, path);
    var zr := InOrder(z.right);
    assert zr == [zr[0]] + zr[1..];
  }

  /** The tree's in-order sequence around the node at `route`. */
  lemma AroundNode(t: Tree, route: seq<Dir>)
    requires ValidRoute(t, route)
    ensures var zp := Unzip(t, route);
      zp.0.Node? && Plug(zp.0, zp.1) == t &&
      InOrder(t) == Before(zp.1) + InOrder(zp.0.left) + [EntryOf(zp.0)] + InOrder(zp.0.right) + After(zp.1) &&
      Index(t, route) == |Before(zp.1)| + |InOrder(zp.0.left)|
  {
    var zp := Unzip(t, route);
    var z, path := zp.0, zp.1;
    UnzipSplits(t, route);
    assert z == SubtreeAt(t, route) && |Before(path)| == Offset(t, route);
    PlugInOrder(z, path);
    assert InOrder(z) == InOrder(z.left) + [EntryOf(z)] + InOrder(z.right);
  }

  /** Splicing leaves the ancestors' entries around the node's two subtrees. */
  lemma SpliceJoins(t: Tree, route: seq<Dir>)
    requires ValidRoute(t, route)
    ensures var zp := Unzip(t, route);
      var c := Splice(t, route);
      zp.0.Node? &&
      InOrder(Plug(c.x, c.path)) == Before(zp.1) + (InOrder(zp.0.left) + InOrder(zp.0.right)) + After(zp.1)
  {
    var zp := Unzip(t, route);
    var z, path := zp.0, zp.1;
    var c := Splice(t, route);
    if z.left.Nil? || z.right.Nil? {
      assert c.path == path;
      PlugInOrder(c.x, path);
      assert InOrder(c.x) == InOrder(z.left) + InOrder(z.right);
    } else {
      var yi := LeftmostZip(z.right, []);
      var u := Attach(Frame(R, z.color, yi.0.key, yi.0.pid, z.left), Plug(yi.0.right, yi.1));
      SpliceTwoChildren(z, path);
      PlugInOrder(u, path);
    }
  }

  /** Splicing removes exactly the entry at the node's in-order position. */
  lemma SpliceInOrder(t: Tree, route: seq<Dir>)
    requires ValidRoute(t, route)
    ensures var c := Splice(t, route);
      var s := InOrder(t);
      var i := Index(t, route);
      i < |s| && InOrder(Plug(c.x, c.path)) == s[..i] + s[i + 1..]
  {
    var zp := Unzip(t, route);
    var z, path := zp.0, zp.1;
    AroundNode(t, route);
    SpliceJoins(t, route);
    Excise(Before(path), InOrder(z.left), EntryOf(z), InOrder(z.right), After(path));
  }

  /** With two real children, the node's place now holds the pair of the node
      `tree_successor` answers. */
  lemma SpliceCopiesSuccessor(t: Tree, route: seq<Dir>)
    requires ValidRoute(t, route)
    requires SubtreeAt(t, route).left.Node? && SubtreeAt(t, route).right.Node?
    ensures var c := Splice(t, route);
      var h := TreeSuccessor(t, route);
      h.At? && ValidRoute(Plug(c.x, c.path), route) &&
      EntryOf(SubtreeAt(Plug(c.x, c.path), route)) == EntryOf(SubtreeAt(t, h.route))
  {
    var (z, path) := Unzip(t, route);
    var (y, inner) := LeftmostZip(z.right, []);
    var u := Attach(Frame(R, z.color, y.key, y.pid, z.left), Plug(y.right, inner));
    SpliceTwoChildren(z, path);
    UnzipRefocus(t, route, u);
    SuccessorIsNextInOrder(t, route);
    var h := TreeSuccessor(t, route);
    IndexEntry(t, h.route);
    AroundNode(t, route);
    Excise(Before(path), InOrder(z.left), EntryOf(z), InOrder(z.right), After(path));
  }

  /** One pass of the `fix_delete` loop or its end. */
  datatype Step = Up(x: Tree, path: seq<Frame>) | Done(t: Tree)

  /** One iteration of the `fix_delete` loop for an x that is its parent's
      left child, x being a black real node. */
  function StepLeft(x: Tree, path: seq<Frame>): (s: Step)
    requires path != [] && path[0].dir == L
    ensures s.Up? ==> |s.path| < |path| || (|s.path| == |path| && !IsBlackNode(s.x))
  {
    var pf := path[0];
    var w := pf.sibling;
    // red sibling: it turns black, the parent red, and `leftrotate` at the
    // parent leaves x under the old parent with the old sibling's left child
    // as its new sibling
    var xp := if IsRed(w) then
        [Frame(L, Red, pf.key, pf.pid, w.left), Frame(L, Black, w.key, w.pid, w.right)] + path[1..]
      else path;
    var pf1 := xp[0];
    var w1 := pf1.sibling;
    if !IsRed(LeftOf(w1)) && !IsRed(RightOf(w1)) then
      // both nephews black: the sibling turns red and the deficit moves up
      Up(Attach(pf1.(sibling := Paint(w1, Red)), x), xp[1..])
    else
      // far nephew black: recolour and `rightrotate` at the sibling first
      var w2 := if !IsRed(RightOf(w1)) then
          RotateRight(Node(Red, Paint(w1.left, Black), w1.key, w1.pid, w1.right))
        else w1;
      // the sibling takes the parent's colour, parent and far nephew turn
      // black, `leftrotate` at the parent, and x becomes the root
      var top := RotateLeft(Node(Black, x, pf1.key, pf1.pid,
        Node(pf1.color, w2.left, w2.key, w2.pid, Paint(w2.right, Black))));
      Done(Paint(Plug(top, xp[1..]), Black))
  }

  /** The mirror image of `StepLeft`, for an x that is its parent's right child. */
  function StepRight(x: Tree, path: seq<Frame>): (s: Step)
    requires path != [] && path[0].dir == R
    ensures s.Up? ==> |s.path| < |path| || (|s.path| == |path| && !IsBlackNode(s.x))
  {
    var pf := path[0];
    var w := pf.sibling;
    var xp := if IsRed(w) then
        [Frame(R, Red, pf.key, pf.pid, w.right), Frame(R, Black, w.key, w.pid, w.left)] + path[1..]
      else path;
    var pf1 := xp[0];
    var w1 := pf1.sibling;
    if !IsRed(LeftOf(w1)) && !IsRed(RightOf(w1)) then
      Up(Attach(pf1.(sibling := Paint(w1, Red)), x), xp[1..])
    else
      var w2 := if !IsRed(LeftOf(w1)) then
          RotateLeft(Node(Red, w1.left, w1.key, w1.pid, Paint(w1.right, Black)))
        else w1;
      var top := RotateRight(Node(Black,
        Node(pf1.color, Paint(w2.left, Black), w2.key, w2.pid, w2.right), pf1.key, pf1.pid, x));
      Done(Paint(Plug(top, xp[1..]), Black))
  }

  /** `fix_delete`: loop while x is a black real node, then paint x black.
      For the black root the source's pass through the sentinel changes
      nothing, so the loop stops there. */
  function FixDelete(x: Tree, path: seq<Frame>): Tree
    decreases |path|, if IsBlackNode(x) then 1 else 0
  {
    if !IsBlackNode(x) then Plug(Paint(x, Black), path)
    else if path == [] then x
    else
      match (if path[0].dir == L then StepLeft(x, path) else StepRight(x, path))
      case Done(t) => t
      case Up(x', p') => FixDelete(x', p')
  }

  /** `delete` on the tree value, for the node a route names. */
  function Delete(t: Tree, route: seq<Dir>): Tree
    requires ValidRoute(t, route)
  {
    var c := Splice(t, route);
    if c.removed == Black then FixDelete(c.x, c.path) else Plug(c.x, c.path)
  }

  /** The outermost ancestor frame, which holds the root, is black. */
  predicate RootFrameBlack(path: seq<Frame>) {
    path != [] ==> path[|path| - 1].color == Black
  }

  /** Splicing a node out of a tree with a black root keeps the root's frame
      black; a splice that leaves no ancestors removed the black root itself. */
  lemma SpliceRoot(t: Tree, route: seq<Dir>)
    requires ValidRoute(t, route) && !IsRed(t)
    ensures var c := Splice(t, route);
      RootFrameBlack(c.path) && (c.path == [] ==> c.removed == Black)
  {
    UnzipSplits(t, route);
    var zp := Unzip(t, route);
    if zp.1 != [] {
      PlugRoot(zp.0, zp.1);
    }
  }

  /** A pass of the repair loop never reddens the root: a pass that ends
      paints it black, and one that moves up keeps the outermost frame. */
  lemma StepLeftRoot(x: Tree, path: seq<Frame>)
    requires path != [] && path[0].dir == L && RootFrameBlack(path)
    ensures var s := StepLeft(x, path);
      (s.Up? ==> RootFrameBlack(s.path)) && (s.Done? ==> !IsRed(s.t))
  {
  }

  lemma StepRightRoot(x: Tree, path: seq<Frame>)
    requires path != [] && path[0].dir == R && RootFrameBlack(path)
    ensures var s := StepRight(x, path);
      (s.Up? ==> RootFrameBlack(s.path)) && (s.Done? ==> !IsRed(s.t))
  {
  }

  /** `fix_delete` leaves a black root when the root's frame is black. */
  lemma {:induction false} FixDeleteRootBlack(x: Tree, path: seq<Frame>)
    requires RootFrameBlack(path)
    ensures !IsRed(FixDelete(x, path))
    decreases |path|, if IsBlackNode(x) then 1 else 0
  {
    if !IsBlackNode(x) {
      if path != [] {
        PlugRoot(Paint(x, Black), path);
      }
    } else if path != [] {
      var s := if path[0].dir == L then StepLeft(x, path) else StepRight(x, path);
      if path[0].dir == L {
        StepLeftRoot(x, path);
      } else {
        StepRightRoot(x, path);
      }
      if s.Up? {
        FixDeleteRootBlack(s.x, s.path);
      }
    }
  }

  /** `delete` keeps the root black. */
  lemma DeleteRootBlack(t: Tree, route: seq<Dir>)
    requires ValidRoute(t, route) && !IsRed(t)
    ensures !IsRed(Delete(t, route))
  {
    SpliceRoot(t, route);
    var c := Splice(t, route);
    if c.removed == Black {
      FixDeleteRootBlack(c.x, c.path);
    } else {
      PlugRoot(c.x, c.path);
    }
  }

  /** The tree a step stands for: the rebuilt tree when it moves up, the
      finished tree when it ends. */
  function StepTree(s: Step): Tree {
    if s.Up? then Plug(s.x, s.path) else s.t
  }

  lemma PlugTwo(x: Tree, f1: Frame, f2: Frame, rest: seq<Frame>)
    ensures Plug(x, [f1, f2] + rest) == Plug(Attach(f2, Attach(f1, x)), rest)
  {
    var p := [f1, f2] + rest;
    assert p[0] == f1 && p[1..][0] == f2 && p[1..][1..] == rest;
  }

  /** Whatever case a `fix_delete` pass takes, the in-order sequence of the
      whole tree is unchanged. */
  lemma StepLeftInOrder(x: Tree, path: seq<Frame>)
    requires path != [] && path[0].dir == L
    ensures InOrder(StepTree(StepLeft(x, path))) == InOrder(Plug(x, path))
  {
    var pf := path[0];
    var w := pf.sibling;
    var rest := path[1..];
    var xp := if IsRed(w) then
        [Frame(L, Red, pf.key, pf.pid, w.left), Frame(L, Black, w.key, w.pid, w.right)] + rest
      else path;
    if IsRed(w) {
      var f1, f2 := Frame(L, Red, pf.key, pf.pid, w.left), Frame(L, Black, w.key, w.pid, w.right);
      PlugTwo(x, f1, f2, rest);
      var e, we := Entry(pf.key, pf.pid), Entry(w.key, w.pid);
      assert InOrder(Attach(f2, Attach(f1, x)))
        == InOrder(x) + [e] + InOrder(w.left) + [we] + InOrder(w.right);
      assert InOrder(Attach(pf, x)) == InOrder(x) + [e] + (InOrder(w.left) + [we] + InOrder(w.right));
      PlugSameInOrder(Attach(f2, Attach(f1, x)), Attach(pf, x), rest);
    }
    assert InOrder(Plug(x, xp)) == InOrder(Plug(x, path));
    var pf1 := xp[0];
    var w1 := pf1.sibling;
    assert Plug(x, xp) == Plug(Attach(pf1, x), xp[1..]);
    if !IsRed(LeftOf(w1)) && !IsRed(RightOf(w1)) {
      PaintKeepsInOrder(w1, Red);
      PlugSameInOrder(Attach(pf1.(sibling := Paint(w1, Red)), x), Attach(pf1, x), xp[1..]);
    } else {
      var w2 := if !IsRed(RightOf(w1)) then
          RotateRight(Node(Red, Paint(w1.left, Black), w1.key, w1.pid, w1.right))
        else w1;
      PaintKeepsInOrder(w1.left, Black);
      assert InOrder(w2) == InOrder(w1);
      PaintKeepsInOrder(w2.right, Black);
      var inner := Node(pf1.color, w2.left, w2.key, w2.pid, Paint(w2.right, Black));
      assert InOrder(inner) == InOrder(w2);
      var top := RotateLeft(Node(Black, x, pf1.key, pf1.pid, inner));
      assert InOrder(top) == InOrder(Attach(pf1, x));
      PlugSameInOrder(top, Attach(pf1, x), xp[1..]);
      PaintKeepsInOrder(Plug(top, xp[1..]), Black);
    }
  }

  lemma StepRightInOrder(x: Tree, path: seq<Frame>)
    requires path != [] && path[0].dir == R
    ensures InOrder(StepTree(StepRight(x, path))) == InOrder(Plug(x, path))
  {
    var pf := path[0];
    var w := pf.sibling;
    var rest := path[1..];
    var xp := if IsRed(w) then
        [Frame(R, Red, pf.key, pf.pid, w.right), Frame(R, Black, w.key, w.pid, w.left)] + rest
      else path;
    if IsRed(w) {
      var f1, f2 := Frame(R, Red, pf.key, pf.pid, w.right), Frame(R, Black, w.key, w.pid, w.left);
      PlugTwo(x, f1, f2, rest);
      var e, we := Entry(pf.key, pf.pid), Entry(w.key, w.pid);
      assert InOrder(Attach(f2, Attach(f1, x)))
        == InOrder(w.left) + [we] + (InOrder(w.right) + [e] + InOrder(x));
      assert InOrder(Attach(pf, x)) == InOrder(w.left) + [we] + InOrder(w.right) + [e] + InOrder(x);
      PlugSameInOrder(Attach(f2, Attach(f1, x)), Attach(pf, x), rest);
    }
    assert InOrder(Plug(x, xp)) == InOrder(Plug(x, path));
    var pf1 := xp[0];
    var w1 := pf1.sibling;
    assert Plug(x, xp) == Plug(Attach(pf1, x), xp[1..]);
    if !IsRed(LeftOf(w1)) && !IsRed(RightOf(w1)) {
      PaintKeepsInOrder(w1, Red);
      PlugSameInOrder(Attach(pf1.(sibling := Paint(w1, Red)), x), Attach(pf1, x), xp[1..]);
    } else {
      var w2 := if !IsRed(LeftOf(w1)) then
          RotateLeft(Node(Red, w1.left, w1.key, w1.pid, Paint(w1.right, Black)))
        else w1;
      PaintKeepsInOrder(w1.right, Black);
      assert InOrder(w2) == InOrder(w1);
      PaintKeepsInOrder(w2.left, Black);
      var inner := Node(pf1.color, Paint(w2.left, Black), w2.key, w2.pid, w2.right);
      assert InOrder(inner) == InOrder(w2);
      var top := RotateRight(Node(Black, inner, pf1.key, pf1.pid, x));
      assert InOrder(top) == InOrder(Attach(pf1, x));
      PlugSameInOrder(top, Attach(pf1, x), xp[1..]);
      PaintKeepsInOrder(Plug(top, xp[1..]), Black);
    }
  }

  /** `fix_delete` only recolours and rotates: the in-order sequence of the
      whole tree is the one it was handed. */
  lemma {:induction false} FixDeleteInOrder(x: Tree, path: seq<Frame>)
    ensures InOrder(FixDelete(x, path)) == InOrder(Plug(x, path))
    decreases |path|, if IsBlackNode(x) then 1 else 0
  {
    if !IsBlackNode(x) {
      PaintKeepsInOrder(x, Black);
      PlugSameInOrder(Paint(x, Black), x, path);
    } else if path != [] {
      var st := if path[0].dir == L then StepLeft(x, path) else StepRight(x, path);
      if path[0].dir == L { StepLeftInOrder(x, path); } else { StepRightInOrder(x, path); }
      if st.Up? {
        FixDeleteInOrder(st.x, st.path);
      }
    }
  }

  /** `delete` removes exactly the node's pair from the in-order sequence,
      keeps BST order, and shrinks the tree by one node. */
  lemma DeleteInOrder(t: Tree, route: seq<Dir>)
    requires ValidRoute(t, route)
    ensures var s := InOrder(t);
      var i := Index(t, route);
      i < |s| && s[i] == EntryOf(SubtreeAt(t, route)) &&
      InOrder(Delete(t, route)) == s[..i] + s[i + 1..]
    ensures Size(Delete(t, route)) == Size(t) - 1
    ensures Sorted(InOrder(t)) ==> Sorted(InOrder(Delete(t, route)))
  {
    var c := Splice(t, route);
    var s := InOrder(t);
    var i := Index(t, route);
    SpliceInOrder(t, route);
    IndexEntry(t, route);
    if c.removed == Black { FixDeleteInOrder(c.x, c.path); }
    SizeIsLength(t);
    SizeIsLength(Delete(t, route));
    if Sorted(s) {
      SortedDropOne(s, i);
    }
  }

  lemma SortedDropOne(s: seq<Entry>, i: int)
    requires Sorted(s) && 0 <= i < |s|
    ensures Sorted(s[..i] + s[i + 1..])
  {
    var d := s[..i] + s[i + 1..];
    forall a, b | 0 <= a < b < |d|
      ensures d[a].key <= d[b].key
    {
      var a' := if a < i then a else a + 1;
      var b' := if b < i then b else b + 1;
      assert d[a] == s[a'] && d[b] == s[b'];
    }
  }

  /** `delete` does not keep black-heights equal: insert 10, 5, 15, 20, then
      delete the black leaf 5. Its place is taken by the sentinel, the
      repair loop is skipped, and node 10 is left with black-height 0 on the
      left and 1 on the right. */
  lemma DeleteCanUnbalance()
    ensures var t := Insert(Insert(Insert(Insert(Nil, 10.0, "a"), 5.0, "b"), 15.0, "c"), 20.0, "d");
      IsRedBlack(t) && ValidRoute(t, [L]) && EntryOf(SubtreeAt(t, [L])) == Entry(5.0, "b") &&
      !BlackBalanced(Delete(t, [L]))
  {
    var t := Insert(Insert(Insert(Insert(Nil, 10.0, "a"), 5.0, "b"), 15.0, "c"), 20.0, "d");
    assert t == Node(Black, Node(Black, Nil, 5.0, "b", Nil), 10.0, "a",
      Node(Black, Nil, 15.0, "c", Node(Red, Nil, 20.0, "d", Nil)));
  }

  /** `search` is not complete when keys repeat: after inserting (5, "a"),
      (5, "b"), (5, "c") the root holds "b" with "a" to its left, and the
      search for (5, "a") walks right. */
  lemma SearchMissesDuplicate()
    ensures var t := Insert(Insert(Insert(Nil, 5.0, "a"), 5.0, "b"), 5.0, "c");
      Entry(5.0, "a") in InOrder(t) && Search(t, 5.0, "a") == NilHandle
  {
    var t := Insert(Insert(Insert(Nil, 5.0, "a"), 5.0, "b"), 5.0, "c");
    assert t == Node(Black, Node(Red, Nil, 5.0, "a", Nil), 5.0, "b", Node(Red, Nil, 5.0, "c", Nil));
  }
}

=== FILE: rb_insert.dfy ===
/** `insert` and `fix_insert`: a BST descent in which ties go right, a new red
    node hung where the descent fell off the tree, then the bottom-up repair
    of the colouring rules. */
module RbInsert {
  import opened RbTree

  /** Number of leading entries whose key is at most k. In a BST this is the
      place right after the last entry with key <= k. */
  function UpperBound(s: seq<Entry>, k: real): (u: nat)
    ensures u <= |s|
    ensures forall j :: 0 <= j < u ==> s[j].key <= k
    ensures u < |s| ==> k < s[u].key
  {
    if s == [] || k < s[0].key then 0 else 1 + UpperBound(s[1..], k)
  }

  /** In a BST every entry from the upper bound on has a key above k. */
  lemma UpperBoundSplitsSorted(s: seq<Entry>, k: real)
    requires Sorted(s)
    ensures forall j :: UpperBound(s, k) <= j < |s| ==> k < s[j].key
  {
  }

  lemma {:induction false} UpperBoundAppend(a: seq<Entry>, b: seq<Entry>, k: real)
    ensures UpperBound(a + b, k) ==
      if UpperBound(a, k) < |a| then UpperBound(a, k) else |a| + UpperBound(b, k)
    decreases |a|
  {
    if a == [] {
      assert a + b == b;
    } else {
      assert (a + b)[0] == a[0];
      assert (a + b)[1..] == a[1..] + b;
      UpperBoundAppend(a[1..], b, k);
    }
  }

  /** The descent loop of `insert`: go left when the new key is smaller than
      the node's key, right otherwise, and stop at the sentinel. The answer is
      the chain of ancestors of the empty spot. */
  function Descend(t: Tree, k: real, path: seq<Frame>): (d: seq<Frame>)
    ensures Plug(Nil, d) == Plug(t, path)
    decreases t
  {
    match t
    case Nil => path
    case Node(c, l, key, pid, r) =>
      var f := if k < key then Frame(L, c, key, pid, r) else Frame(R, c, key, pid, l);
      assert Plug(Child(t, f.dir), [f] + path) == Plug(t, path) by {
        assert ([f] + path)[0] == f && ([f] + path)[1..] == path;
      }
      Descend(Child(t, f.dir), k, [f] + path)
  }

  /** On a BST the empty spot the descent reaches sits right after the last
      entry whose key is at most k. */
  lemma DescendInOrder(t: Tree, k: real, path: seq<Frame>)
    requires Sorted(InOrder(t))
    ensures var s := InOrder(t);
      var u := UpperBound(s, k);
      var d := Descend(t, k, path);
      Before(d) == Before(path) + s[..u] && After(d) == s[u..] + After(path)
  {
    var s := InOrder(t);
    var u := UpperBound(s, k);
    var d := Descend(t, k, path);
    DescendPlugs(t, k, path);
    DescendCountsBefore(t, k, path);
    SplitAt(Before(d), After(d), Before(path), s, After(path), u);
  }

  /** The entries beside the empty spot are those beside t. */
  lemma DescendPlugs(t: Tree, k: real, path: seq<Frame>)
    ensures var d := Descend(t, k, path);
      Before(d) + After(d) == Before(path) + InOrder(t) + After(path)
  {
    var d := Descend(t, k, path);
    var x, y := Before(d), After(d);
    PlugInOrder(Nil, d);
    PlugInOrder(t, path);
    assert x + [] + y == x + y;
  }

  /** The descent passes exactly UpperBound(InOrder(t), k) entries on its left. */
  lemma {:induction false} DescendCountsBefore(t: Tree, k: real, path: seq<Frame>)
    requires Sorted(InOrder(t))
    ensures |Before(Descend(t, k, path))| == |Before(path)| + UpperBound(InOrder(t), k)
    decreases t
  {
    match t
    case Nil =>
    case Node(c, l, key, pid, r) =>
      SortedSubtrees(l, key, pid, r);
      var e := Entry(key, pid);
      if k < key {
        var f := Frame(L, c, key, pid, r);
        ConsFrame(f, path);
        DescendCountsBefore(l, k, [f] + path);
        GoLeftSplit(InOrder(l), e, InOrder(r), k);
      } else {
        var f := Frame(R, c, key, pid, l);
        ConsFrame(f, path);
        DescendCountsBefore(r, k, [f] + path);
        GoRightSplit(InOrder(l), e, InOrder(r), k);
      }
  }

  lemma SplitAt(x: seq<Entry>, y: seq<Entry>, p: seq<Entry>, s: seq<Entry>, a: seq<Entry>, u: nat)
    requires x + y == p + s + a && |x| == |p| + u && u <= |s|
    ensures x == p + s[..u] && y == s[u..] + a
  {
    assert x == (x + y)[..|x|];
    assert (p + s + a)[..|p| + u] == p + s[..u];
    assert y == (x + y)[|x|..];
    assert (p + s + a)[|p| + u..] == s[u..] + a;
  }

  lemma ConsFrame(f: Frame, path: seq<Frame>)
    ensures Before([f] + path) ==
      Before(path) + (if f.dir == R then InOrder(f.sibling) + [Entry(f.key, f.pid)] else [])
    ensures After([f] + path) ==
      (if f.dir == L then [Entry(f.key, f.pid)] + InOrder(f.sibling) else []) + After(path)
  {
    assert ([f] + path)[0] == f && ([f] + path)[1..] == path;
  }

  lemma GoLeftSplit(a: seq<Entry>, e: Entry, b: seq<Entry>, k: real)
    requires k < e.key
    ensures UpperBound(a + [e] + b, k) == UpperBound(a, k)
  {
    assert a + [e] + b == a + ([e] + b);
    UpperBoundAppend(a, [e] + b, k);
    assert UpperBound([e] + b, k) == 0;
  }

  lemma GoRightSplit(a: seq<Entry>, e: Entry, b: seq<Entry>, k: real)
    requires e.key <= k
    requires forall x :: x in a ==> x.key <= e.key
    ensures UpperBound(a + [e] + b, k) == |a| + 1 + UpperBound(b, k)
  {
    assert a + [e] + b == a + ([e] + b);
    UpperBoundAppend(a, [e] + b, k);
    UpperBoundAll(a, k);
    assert ([e] + b)[0] == e && ([e] + b)[1..] == b;
  }

  lemma {:induction false} UpperBoundAll(a: seq<Entry>, k: real)
    requires forall x :: x in a ==> x.key <= k
    ensures UpperBound(a, k) == |a|
    decreases |a|
  {
    if a != [] {
      assert a[0] in a;
      assert forall x :: x in a[1..] ==> x in a;
      UpperBoundAll(a[1..], k);
    }
  }

  /** `fix_insert`, one loop iteration per call. z is the node the loop looks
      at and path its ancestors; the loop runs while z's parent is red. The
      answer is the whole tree with the root painted black. A red parent
      without a grandparent would be a red root, which a tree with a black
      root never has, so that case just paints the root black. */
  function FixInsert(z: Tree, path: seq<Frame>): Tree
    requires z.Node?
    decreases |path|
  {
    if |path| < 2 || path[0].color == Black then Paint(Plug(z, path), Black)
    else
      var p := path[0];
      var g := path[1];
      if IsRed(g.sibling) then
        // red uncle: parent and uncle turn black, the grandparent red, and the loop moves up
        var parent := Attach(p.(color := Black), z);
        FixInsert(Attach(g.(color := Red, sibling := Paint(g.sibling, Black)), parent), path[2..])
      else
        // black uncle: straighten an inner z, rotate at the grandparent; the loop then stops
        Paint(Plug(BlackUncleResult(z, p, g), path[2..]), Black)
  }

  /** `insert` on the tree value: descend, hang a red node, repair. */
  function Insert(t: Tree, k: real, p: string): Tree {
    FixInsert(Node(Red, Nil, k, p, Nil), Descend(t, k, []))
  }

  /** Every way out of `fix_insert` paints the root black (RBT.py:181). */
  lemma {:induction false} FixInsertRootBlack(z: Tree, path: seq<Frame>)
    requires z.Node?
    ensures !IsRed(FixInsert(z, path))
    decreases |path|
  {
    if |path| >= 2 && path[0].color == Red && IsRed(path[1].sibling) {
      var p := path[0];
      var g := path[1];
      var parent := Attach(p.(color := Black), z);
      FixInsertRootBlack(Attach(g.(color := Red, sibling := Paint(g.sibling, Black)), parent), path[2..]);
    }
  }

  /** `fix_insert` only recolours and rotates: the in-order sequence is untouched. */
  lemma {:induction false} FixInsertInOrder(z: Tree, path: seq<Frame>)
    requires z.Node?
    ensures InOrder(FixInsert(z, path)) == InOrder(Plug(z, path))
    decreases |path|
  {
    if |path| < 2 || path[0].color == Black {
      PaintKeepsInOrder(Plug(z, path), Black);
    } else {
      var p := path[0];
      var g := path[1];
      var old3 := Attach(g, Attach(p, z));
      assert Plug(z, path) == Plug(old3, path[2..]) by {
        assert path[1..][0] == g && path[1..][1..] == path[2..];
      }
      if IsRed(g.sibling) {
        var parent := Attach(p.(color := Black), z);
        var gz := Attach(g.(color := Red, sibling := Paint(g.sibling, Black)), parent);
        FixInsertInOrder(gz, path[2..]);
        PaintKeepsInOrder(g.sibling, Black);
        assert InOrder(gz) == InOrder(old3);
        PlugSameInOrder(gz, old3, path[2..]);
      } else {
        var s := BlackUncleResult(z, p, g);
        assert InOrder(s) == InOrder(old3);
        PlugSameInOrder(s, old3, path[2..]);
        PaintKeepsInOrder(Plug(s, path[2..]), Black);
      }
    }
  }

  /** `insert` places the new pair right after the last entry whose key is at
      most its key (so equal keys keep their insertion order), adds exactly
      one node, and keeps the BST order. */
  lemma InsertInOrder(t: Tree, k: real, p: string)
    requires Sorted(InOrder(t))
    ensures var s := InOrder(t);
      var u := UpperBound(s, k);
      InOrder(Insert(t, k, p)) == s[..u] + [Entry(k, p)] + s[u..]
    ensures Size(Insert(t, k, p)) == Size(t) + 1
    ensures Sorted(InOrder(Insert(t, k, p)))
  {
    var s := InOrder(t);
    var u := UpperBound(s, k);
    InsertPlacement(t, k, p);
    SizeIsLength(t);
    SizeIsLength(Insert(t, k, p));
    UpperBoundSplitsSorted(s, k);
    SortedInsertAt(s, u, Entry(k, p));
  }

  lemma InsertPlacement(t: Tree, k: real, p: string)
    requires Sorted(InOrder(t))
    ensures var s := InOrder(t);
      var u := UpperBound(s, k);
      InOrder(Insert(t, k, p)) == s[..u] + [Entry(k, p)] + s[u..]
  {
    var s := InOrder(t);
    var u := UpperBound(s, k);
    var d := Descend(t, k, []);
    var z := Node(Red, Nil, k, p, Nil);
    DescendInOrder(t, k, []);
    assert Before([]) == [] && After([]) == [];
    FixInsertInOrder(z, d);
    PlugInOrder(z, d);
  }

  /** Putting e between the entries with keys at most its own and those with
      larger keys keeps a sorted sequence sorted. */
  lemma SortedInsertAt(s: seq<Entry>, u: nat, e: Entry)
    requires Sorted(s) && u <= |s|
    requires forall j :: 0 <= j < u ==> s[j].key <= e.key
    requires forall j :: u <= j < |s| ==> e.key < s[j].key
    ensures Sorted(s[..u] + [e] + s[u..])
  {
    var r := s[..u] + [e] + s[u..];
    forall i, j | 0 <= i < j < |r|
      ensures r[i].key <= r[j].key
    {
      if j < u {
        assert r[i] == s[i] && r[j] == s[j];
      } else if j == u {
        assert r[j] == e;
        assert r[i] == s[i];
      } else if i < u {
        assert r[i] == s[i] && r[j] == s[j - 1];
      } else if i == u {
        assert r[j] == s[j - 1];
      } else {
        assert r[i] == s[i - 1] && r[j] == s[j - 1];
      }
    }
  }

  // ---------------------------------------------------------------------
  // The colouring rules

  /** The ancestors of a focus whose black-height is h obey the colouring
      rules, except that a red parent may sit over the focus itself. */
  ghost predicate ContextOK(h: nat, path: seq<Frame>)
    decreases |path|
  {
    path == [] ||
    (var f := path[0];
     && NoRedRed(f.sibling) && BlackBalanced(f.sibling) && BlackHeight(f.sibling) == h
     && (f.color == Red ==> !IsRed(f.sibling) && |path| > 1 && path[1].color == Black)
     && ContextOK(h + (if f.color == Black then 1 else 0), path[1..]))
  }

  lemma {:induction false} PlugKeepsRules(t: Tree, path: seq<Frame>)
    requires NoRedRed(t) && BlackBalanced(t) && ContextOK(BlackHeight(t), path)
    requires path != [] && path[0].color == Red ==> !IsRed(t)
    ensures NoRedRed(Plug(t, path)) && BlackBalanced(Plug(t, path))
    decreases |path|
  {
    if path != [] {
      var f := path[0];
      var a := Attach(f, t);
      assert BlackHeight(a) == BlackHeight(t) + (if f.color == Black then 1 else 0);
      PlugKeepsRules(a, path[1..]);
    }
  }

  lemma {:induction false} UnplugRules(t: Tree, path: seq<Frame>)
    requires NoRedRed(Plug(t, path)) && BlackBalanced(Plug(t, path)) && !IsRed(Plug(t, path))
    ensures NoRedRed(t) && BlackBalanced(t) && ContextOK(BlackHeight(t), path)
    ensures path != [] && path[0].color == Red ==> !IsRed(t)
    decreases |path|
  {
    if path != [] {
      var f := path[0];
      var a := Attach(f, t);
      UnplugRules(a, path[1..]);
      assert BlackHeight(a) == BlackHeight(t) + (if f.color == Black then 1 else 0);
      if path[1..] == [] {
        assert Plug(t, path) == a;
      }
    }
  }

  /** `fix_insert` turns a tree whose only flaw is a red node under a red
      parent into a valid red-black tree. */
  lemma {:induction false} FixInsertRules(z: Tree, path: seq<Frame>)
    requires z.Node? && z.color == Red && NoRedRed(z) && BlackBalanced(z)
    requires ContextOK(BlackHeight(z), path)
    ensures IsRedBlack(FixInsert(z, path))
    decreases |path|
  {
    var h := BlackHeight(z);
    if |path| < 2 || path[0].color == Black {
      PlugKeepsRules(z, path);
      PaintBlackKeepsRules(Plug(z, path));
    } else {
      var p := path[0];
      var g := path[1];
      var u := g.sibling;
      assert path[1..][0] == g && path[1..][1..] == path[2..];
      assert g.color == Black;
      assert NoRedRed(u) && BlackBalanced(u) && BlackHeight(u) == h;
      assert ContextOK(h + 1, path[2..]);
      if IsRed(u) {
        var parent := Attach(p.(color := Black), z);
        assert BlackHeight(parent) == h + 1;
        var u' := Paint(u, Black);
        assert BlackHeight(u') == h + 1;
        var gz := Attach(g.(color := Red, sibling := u'), parent);
        assert BlackHeight(gz) == h + 1;
        FixInsertRules(gz, path[2..]);
      } else {
        BlackUncleRules(z, p, g);
        var s := BlackUncleResult(z, p, g);
        PlugKeepsRules(s, path[2..]);
        PaintBlackKeepsRules(Plug(s, path[2..]));
      }
    }
  }

  /** The subtree a black-uncle case leaves in the grandparent's place. */
  function BlackUncleResult(z: Tree, p: Frame, g: Frame): Tree
    requires z.Node?
  {
    if g.dir == L then
      var top := if p.dir == R then RotateLeft(Attach(p, z)) else Attach(p, z);
      RotateRight(Attach(g.(color := Red), Paint(top, Black)))
    else
      var top := if p.dir == L then RotateRight(Attach(p, z)) else Attach(p, z);
      RotateLeft(Attach(g.(color := Red), Paint(top, Black)))
  }

  /** The black-uncle cases leave a black subtree of one more black-height that obeys every rule. */
  lemma BlackUncleRules(z: Tree, p: Frame, g: Frame)
    requires z.Node? && z.color == Red && NoRedRed(z) && BlackBalanced(z)
    requires p.color == Red && g.color == Black && !IsRed(g.sibling)
    requires NoRedRed(p.sibling) && BlackBalanced(p.sibling) && !IsRed(p.sibling)
    requires NoRedRed(g.sibling) && BlackBalanced(g.sibling)
    requires BlackHeight(p.sibling) == BlackHeight(z) && BlackHeight(g.sibling) == BlackHeight(z)
    ensures var s := BlackUncleResult(z, p, g);
      s.Node? && s.color == Black && NoRedRed(s) && BlackBalanced(s) &&
      BlackHeight(s) == BlackHeight(z) + 1
  {
  }

  /** `insert` followed by `fix_insert` keeps a valid red-black tree valid:
      black root, no red node with a red child, equal black-heights. */
  lemma InsertKeepsRedBlack(t: Tree, k: real, p: string)
    requires IsRedBlack(t)
    ensures IsRedBlack(Insert(t, k, p))
  {
    var d := Descend(t, k, []);
    assert Plug(Nil, d) == t;
    UnplugRules(Nil, d);
    FixInsertRules(Node(Red, Nil, k, p, Nil), d);
  }
}

=== FILE: rb_tree.dfy ===
/** Red-black tree values: nodes and colours, the in-order view of a tree,
    the colouring rules, zipper contexts that stand for parent links, node
    handles written as routes from the root, and the read-only queries
    (leftmost node, search, in-order successor) and the two rotations. */
module RbTree {

  datatype Color = Red | Black

  /** The (key, payload) pair a node carries: a virtual runtime and a process name. */
  datatype Entry = Entry(key: real, pid: string)

  /** A subtree. `Nil` is the one black sentinel that stands for every leaf. */
  datatype Tree = Nil | Node(color: Color, left: Tree, key: real, pid: string, right: Tree)

  predicate IsRed(t: Tree) {
    t.Node? && t.color == Red
  }

  function EntryOf(t: Tree): Entry
    requires t.Node?
  {
    Entry(t.key, t.pid)
  }

  /** Recolouring a node; the sentinel is never recoloured. */
  function Paint(t: Tree, c: Color): Tree {
    if t.Nil? then Nil else t.(color := c)
  }

  function LeftOf(t: Tree): Tree {
    if t.Nil? then Nil else t.left
  }

  function RightOf(t: Tree): Tree {
    if t.Nil? then Nil else t.right
  }

  // ---------------------------------------------------------------------
  // In-order view

  function InOrder(t: Tree): seq<Entry> {
    match t
    case Nil => []
    case Node(_, l, k, p, r) => InOrder(l) + [Entry(k, p)] + InOrder(r)
  }

  /** Number of real (non-sentinel) nodes. */
  function Size(t: Tree): nat {
    match t
    case Nil => 0
    case Node(_, l, _, _, r) => Size(l) + 1 + Size(r)
  }

  lemma {:induction false} SizeIsLength(t: Tree)
    ensures Size(t) == |InOrder(t)|
  {
    match t
    case Nil =>
    case Node(_, l, _, _, r) =>
      SizeIsLength(l);
      SizeIsLength(r);
  }

  lemma PaintKeepsInOrder(t: Tree, c: Color)
    ensures InOrder(Paint(t, c)) == InOrder(t)
  {
  }

  /** The BST property: keys never decrease along the in-order sequence. */
  ghost predicate Sorted(s: seq<Entry>) {
    forall i, j :: 0 <= i < j < |s| ==> s[i].key <= s[j].key
  }

  /** The process names in an entry sequence, with multiplicity. */
  function Pids(s: seq<Entry>): multiset<string> {
    if s == [] then multiset{} else multiset{s[0].pid} + Pids(s[1..])
  }

  lemma {:induction false} PidsAppend(a: seq<Entry>, b: seq<Entry>)
    ensures Pids(a + b) == Pids(a) + Pids(b)
    decreases |a|
  {
    if a == [] {
      assert a + b == b;
    } else {
      assert (a + b)[1..] == a[1..] + b;
      PidsAppend(a[1..], b);
    }
  }

  // ---------------------------------------------------------------------
  // Colouring rules

  /** Number of black nodes on the leftmost path (the sentinel is not counted). */
  function BlackHeight(t: Tree): nat {
    match t
    case Nil => 0
    case Node(c, l, _, _, _) => BlackHeight(l) + (if c == Black then 1 else 0)
  }

  /** Every path from a node down to the sentinel meets the same number of black nodes. */
  ghost predicate BlackBalanced(t: Tree) {
    match t
    case Nil => true
    case Node(_, l, _, _, r) =>
      BlackBalanced(l) && BlackBalanced(r) && BlackHeight(l) == BlackHeight(r)
  }

  /** No red node has a red child. */
  ghost predicate NoRedRed(t: Tree) {
    match t
    case Nil => true
    case Node(c, l, _, _, r) =>
      NoRedRed(l) && NoRedRed(r) && (c == Red ==> !IsRed(l) && !IsRed(r))
  }

  ghost predicate IsRedBlack(t: Tree) {
    !IsRed(t) && NoRedRed(t) && BlackBalanced(t)
  }

  lemma PaintBlackKeepsRules(t: Tree)
    requires NoRedRed(t) && BlackBalanced(t)
    ensures IsRedBlack(Paint(t, Black))
  {
  }

  // ---------------------------------------------------------------------
  // Rotations

  /** `leftrotate`: the right child y of x takes x's place and x becomes y's
      left child; y's old left subtree becomes x's right subtree. */
  function RotateLeft(t: Tree): (r: Tree)
    requires t.Node? && t.right.Node?
    ensures r.Node? && r.left.Node?
    ensures InOrder(r) == InOrder(t)
    ensures Size(r) == Size(t)
  {
    var y := t.right;
    Node(y.color, Node(t.color, t.left, t.key, t.pid, y.left), y.key, y.pid, y.right)
  }

  /** `rightrotate`, the mirror image of `RotateLeft`. */
  function RotateRight(t: Tree): (r: Tree)
    requires t.Node? && t.left.Node?
    ensures r.Node? && r.right.Node?
    ensures InOrder(r) == InOrder(t)
    ensures Size(r) == Size(t)
  {
    var y := t.left;
    Node(y.color, y.left, y.key, y.pid, Node(t.color, y.right, t.key, t.pid, t.right))
  }

  lemma RotationsAreInverse(t: Tree)
    requires t.Node? && t.right.Node?
    ensures RotateRight(RotateLeft(t)) == t
  {
  }

  // ---------------------------------------------------------------------
  // Zipper: the chain of parent links from a node up to the root

  datatype Dir = L | R

  /** One ancestor seen from below: the focus hangs on side `dir` of a node
      with this colour and entry, whose other child is `sibling`. */
  datatype Frame = Frame(dir: Dir, color: Color, key: real, pid: string, sibling: Tree)

  /** Hang subtree t under the ancestor f. */
  function Attach(f: Frame, t: Tree): Tree {
    if f.dir == L then Node(f.color, t, f.key, f.pid, f.sibling)
    else Node(f.color, f.sibling, f.key, f.pid, t)
  }

  /** Rebuild the whole tree from a focus and its ancestors (path[0] is the parent). */
  function Plug(t: Tree, path: seq<Frame>): Tree
    decreases |path|
  {
    if path == [] then t else Plug(Attach(path[0], t), path[1..])
  }

  /** The root of a rebuilt tree is the node of the outermost ancestor frame. */
  lemma {:induction false} PlugRoot(t: Tree, path: seq<Frame>)
    requires path != []
    ensures Plug(t, path).Node? && Plug(t, path).color == path[|path| - 1].color
    decreases |path|
  {
    if |path| > 1 {
      PlugRoot(Attach(path[0], t), path[1..]);
    }
  }

  /** In-order entries of the ancestors that come before the focus. */
  function Before(path: seq<Frame>): seq<Entry>
    decreases |path|
  {
    if path == [] then []
    else
      var f := path[0];
      Before(path[1..]) + (if f.dir == R then InOrder(f.sibling) + [Entry(f.key, f.pid)] else [])
  }

  /** In-order entries of the ancestors that come after the focus. */
  function After(path: seq<Frame>): seq<Entry>
    decreases |path|
  {
    if path == [] then []
    else
      var f := path[0];
      (if f.dir == L then [Entry(f.key, f.pid)] + InOrder(f.sibling) else []) + After(path[1..])
  }

  lemma {:induction false} PlugInOrder(t: Tree, path: seq<Frame>)
    ensures InOrder(Plug(t, path)) == Before(path) + InOrder(t) + After(path)
    decreases |path|
  {
    if path != [] {
      PlugInOrder(Attach(path[0], t), path[1..]);
    }
  }

  /** Only the in-order view of the focus matters for the in-order view of the whole. */
  lemma PlugSameInOrder(a: Tree, b: Tree, path: seq<Frame>)
    requires InOrder(a) == InOrder(b)
    ensures InOrder(Plug(a, path)) == InOrder(Plug(b, path))
  {
    PlugInOrder(a, path);
    PlugInOrder(b, path);
  }

  lemma {:induction false} PlugConcat(t: Tree, a: seq<Frame>, b: seq<Frame>)
    ensures Plug(t, a + b) == Plug(Plug(t, a), b)
    decreases |a|
  {
    if a == [] {
      assert a + b == b;
    } else {
      assert (a + b)[0] == a[0];
      assert (a + b)[1..] == a[1..] + b;
      PlugConcat(Attach(a[0], t), a[1..], b);
    }
  }

  lemma {:induction false} BeforeConcat(a: seq<Frame>, b: seq<Frame>)
    ensures Before(a + b) == Before(b) + Before(a)
    ensures After(a + b) == After(a) + After(b)
    decreases |a|
  {
    if a == [] {
      assert a + b == b;
    } else {
      assert (a + b)[0] == a[0];
      assert (a + b)[1..] == a[1..] + b;
      BeforeConcat(a[1..], b);
    }
  }

  // ---------------------------------------------------------------------
  // Routes: a node handle is the sequence of turns from the root to it

  datatype Handle = NilHandle | At(route: seq<Dir>)

  function Child(t: Tree, d: Dir): Tree
    requires t.Node?
  {
    if d == L then t.left else t.right
  }

  /** The subtree a route leads to (the sentinel once the route falls off the tree). */
  function SubtreeAt(t: Tree, route: seq<Dir>): Tree
    decreases |route|
  {
    if route == [] then t
    else if t.Nil? then Nil
    else SubtreeAt(Child(t, route[0]), route[1..])
  }

  /** The route names a real node of t. */
  predicate ValidRoute(t: Tree, route: seq<Dir>) {
    SubtreeAt(t, route).Node?
  }

  /** How many entries of t precede the subtree at the route, in order. */
  function Offset(t: Tree, route: seq<Dir>): nat
    decreases |route|
  {
    if route == [] || t.Nil? then 0
    else if route[0] == L then Offset(t.left, route[1..])
    else |InOrder(t.left)| + 1 + Offset(t.right, route[1..])
  }

  /** The in-order position of the node a route names. */
  function Index(t: Tree, route: seq<Dir>): nat
    requires ValidRoute(t, route)
  {
    Offset(t, route) + |InOrder(SubtreeAt(t, route).left)|
  }

  lemma {:induction false} IndexEntry(t: Tree, route: seq<Dir>)
    requires ValidRoute(t, route)
    ensures Index(t, route) < |InOrder(t)|
    ensures InOrder(t)[Index(t, route)] == EntryOf(SubtreeAt(t, route))
    decreases |route|
  {
    if route != [] {
      IndexEntry(Child(t, route[0]), route[1..]);
    }
  }

  lemma {:induction false} RouteConcat(t: Tree, a: seq<Dir>, b: seq<Dir>)
    ensures SubtreeAt(t, a + b) == SubtreeAt(SubtreeAt(t, a), b)
    ensures Offset(t, a + b) == Offset(t, a) + Offset(SubtreeAt(t, a), b)
    decreases |a|
  {
    if a == [] {
      assert a + b == b;
    } else if t.Nil? {
      assert SubtreeAt(t, a) == Nil;
      if b != [] {
        assert SubtreeAt(Nil, b) == Nil;
      }
    } else {
      assert (a + b)[0] == a[0];
      assert (a + b)[1..] == a[1..] + b;
      RouteConcat(Child(t, a[0]), a[1..], b);
    }
  }

  function Flip(d: Dir): Dir {
    if d == L then R else L
  }

  /** Focus on the subtree a route names, collecting its ancestors as frames
      (the deepest first): the parent links the source follows upward. */
  function Unzip(t: Tree, route: seq<Dir>): (z: (Tree, seq<Frame>))
    ensures z.0 == SubtreeAt(t, route)
    decreases |route|
  {
    if route == [] || t.Nil? then (t, [])
    else
      var (s, p) := Unzip(Child(t, route[0]), route[1..]);
      (s, p + [Frame(route[0], t.color, t.key, t.pid, Child(t, Flip(route[0])))])
  }

  lemma {:induction false} UnzipSplits(t: Tree, route: seq<Dir>)
    ensures Unzip(t, route).0 == SubtreeAt(t, route)
    ensures Plug(Unzip(t, route).0, Unzip(t, route).1) == t
    ensures |Before(Unzip(t, route).1)| == Offset(t, route)
    decreases |route|
  {
    if route != [] && t.Node? {
      var d := route[0];
      var (s, p) := Unzip(Child(t, d), route[1..]);
      var f := Frame(d, t.color, t.key, t.pid, Child(t, Flip(d)));
      UnzipSplits(Child(t, d), route[1..]);
      PlugConcat(s, p, [f]);
      BeforeConcat(p, [f]);
      assert Attach(f, Child(t, d)) == t;
    }
  }

  /** Plugging any subtree back into the ancestors of a route puts it at that route. */
  lemma {:induction false} UnzipRefocus(t: Tree, route: seq<Dir>, u: Tree)
    requires ValidRoute(t, route)
    ensures SubtreeAt(Plug(u, Unzip(t, route).1), route) == u
    decreases |route|
  {
    if route != [] {
      var d := route[0];
      var (s, p) := Unzip(Child(t, d), route[1..]);
      var f := Frame(d, t.color, t.key, t.pid, Child(t, Flip(d)));
      UnzipRefocus(Child(t, d), route[1..], u);
      PlugConcat(u, p, [f]);
      assert Plug(u, p + [f]) == Attach(f, Plug(u, p));
    }
  }

  function Prepend(d: Dir, h: Handle): Handle {
    if h.NilHandle? then NilHandle else At([d] + h.route)
  }

  // ---------------------------------------------------------------------
  // Queries

  /** `get_leftmost`: follow left links from the root down to the sentinel
      and answer the last real node; the sentinel for an empty tree. */
  function Leftmost(t: Tree): (h: Handle)
    ensures h.NilHandle? <==> t.Nil?
    ensures h.At? ==> ValidRoute(t, h.route) && SubtreeAt(t, h.route).left.Nil?
    ensures h.At? ==> Index(t, h.route) == 0
    ensures h.At? ==> forall i :: 0 <= i < |h.route| ==> h.route[i] == L
  {
    match t
    case Nil => NilHandle
    case Node(_, l, _, _, _) => if l.Nil? then At([]) else Prepend(L, Leftmost(l))
  }

  /** In a BST the leftmost node carries a key no larger than any other key. */
  lemma LeftmostIsMinimum(t: Tree)
    requires Sorted(InOrder(t)) && t.Node?
    ensures var n := SubtreeAt(t, Leftmost(t).route);
      EntryOf(n) == InOrder(t)[0] &&
      forall i :: 0 <= i < |InOrder(t)| ==> n.key <= InOrder(t)[i].key
  {
    IndexEntry(t, Leftmost(t).route);
  }

  /** `tree_successor`: the leftmost node of the right subtree when there is
      one; otherwise climb while the current node is its parent's right child
      and answer that parent (the sentinel once the climb passes the root). */
  function TreeSuccessor(t: Tree, route: seq<Dir>): (h: Handle)
    requires ValidRoute(t, route)
    ensures SubtreeAt(t, route).right.Node? ==>
      h.At? && h.route == route + [R] + Leftmost(SubtreeAt(t, route).right).route &&
      ValidRoute(t, h.route) && SubtreeAt(t, h.route).left.Nil?
  {
    var z := SubtreeAt(t, route);
    if z.right.Node? then
      var down := Leftmost(z.right).route;
      RouteConcat(t, route, [R] + down);
      assert route + [R] + down == route + ([R] + down);
      At(route + [R] + down)
    else ClimbRightLinks(route)
  }

  /** The upward loop of `tree_successor`, on routes: drop trailing right turns,
      then step to the parent. */
  function ClimbRightLinks(route: seq<Dir>): Handle
    decreases |route|
  {
    if route == [] then NilHandle
    else if route[|route| - 1] == R then ClimbRightLinks(route[..|route| - 1])
    else At(route[..|route| - 1])
  }

  /** `tree_successor` answers the next node in order, or the sentinel for the last one. */
  lemma SuccessorIsNextInOrder(t: Tree, route: seq<Dir>)
    requires ValidRoute(t, route)
    ensures var h := TreeSuccessor(t, route);
      (h.At? ==> ValidRoute(t, h.route) && Index(t, h.route) == Index(t, route) + 1) &&
      (h.NilHandle? ==> Index(t, route) == |InOrder(t)| - 1)
  {
    var z := SubtreeAt(t, route);
    if z.right.Node? {
      var down := Leftmost(z.right).route;
      RouteConcat(t, route, [R] + down);
      assert route + [R] + down == route + ([R] + down);
      assert SubtreeAt(z, [R] + down) == SubtreeAt(z.right, down);
      assert Offset(z, [R] + down) == |InOrder(z.left)| + 1 + Offset(z.right, down);
    } else {
      ClimbLemma(t, route, Index(t, route));
    }
  }

  /** Climbing invariant: position i is the last in-order position of the subtree at r. */
  lemma {:induction false} ClimbLemma(t: Tree, r: seq<Dir>, i: int)
    requires ValidRoute(t, r)
    requires i == Offset(t, r) + |InOrder(SubtreeAt(t, r))| - 1
    ensures var h := ClimbRightLinks(r);
      (h.At? ==> ValidRoute(t, h.route) && Index(t, h.route) == i + 1) &&
      (h.NilHandle? ==> i == |InOrder(t)| - 1)
    decreases |r|
  {
    if r != [] {
      var q := r[..|r| - 1];
      var d := r[|r| - 1];
      assert r == q + [d];
      RouteConcat(t, q, [d]);
      var y := SubtreeAt(t, q);
      assert y.Node?;
      assert SubtreeAt(y, [d]) == Child(y, d);
      if d == R {
        assert Offset(y, [d]) == |InOrder(y.left)| + 1;
        ClimbLemma(t, q, i);
      } else {
        assert Offset(y, [d]) == 0;
      }
    }
  }

  /** `search`: BST descent that stops at the first node holding both the key
      and the payload; equal keys with another payload send it to the right. */
  function Search(t: Tree, k: real, p: string): (h: Handle)
    ensures h.At? ==> ValidRoute(t, h.route) && EntryOf(SubtreeAt(t, h.route)) == Entry(k, p)
  {
    match t
    case Nil => NilHandle
    case Node(_, l, key, pid, r) =>
      if key == k && pid == p then At([])
      else if k < key then Prepend(L, Search(l, k, p))
      else Prepend(R, Search(r, k, p))
  }

  /** When no other entry shares its key, a present entry of a BST is found. */
  lemma {:induction false} SearchFindsUniqueKey(t: Tree, k: real, p: string)
    requires Sorted(InOrder(t))
    requires Entry(k, p) in InOrder(t)
    requires forall e :: e in InOrder(t) && e.key == k ==> e.pid == p
    ensures Search(t, k, p).At?
  {
    match t
    case Nil =>
    case Node(_, l, key, pid, r) =>
      assert InOrder(t) == InOrder(l) + [Entry(key, pid)] + InOrder(r);
      SortedSubtrees(l, key, pid, r);
      if key == k && pid == p {
      } else if k < key {
        assert Entry(k, p) !in InOrder(r);
        SearchFindsUniqueKey(l, k, p);
      } else {
        assert Entry(key, pid) in InOrder(t);
        assert Entry(k, p) !in InOrder(l);
        SearchFindsUniqueKey(r, k, p);
      }
  }

  lemma SortedSlice(s: seq<Entry>, a: int, b: int)
    requires Sorted(s) && 0 <= a <= b <= |s|
    ensures Sorted(s[a..b])
  {
    forall i, j | 0 <= i < j < b - a
      ensures s[a..b][i].key <= s[a..b][j].key
    {
      assert s[a..b][i] == s[a + i] && s[a..b][j] == s[a + j];
    }
  }

  /** Both subtrees of a BST node are BSTs, bounded above and below by the node's key. */
  lemma SortedSubtrees(l: Tree, key: real, pid: string, r: Tree)
    requires Sorted(InOrder(l) + [Entry(key, pid)] + InOrder(r))
    ensures Sorted(InOrder(l)) && Sorted(InOrder(r))
    ensures forall e :: e in InOrder(l) ==> e.key <= key
    ensures forall e :: e in InOrder(r) ==> key <= e.key
  {
    SortedAround(InOrder(l), Entry(key, pid), InOrder(r));
  }

  lemma SortedAround(a: seq<Entry>, e: Entry, b: seq<Entry>)
    requires Sorted(a + [e] + b)
    ensures Sorted(a) && Sorted(b)
    ensures forall x :: x in a ==> x.key <= e.key
    ensures forall x :: x in b ==> e.key <= x.key
  {
    var s := a + [e] + b;
    var n := |a|;
    assert s[..n] == a;
    assert s[n + 1..] == b;
    assert s[n] == e;
    SortedSlice(s, 0, n);
    SortedSlice(s, n + 1, |s|);
    SortedSplit(s, n);
  }

  lemma SortedSplit(s: seq<Entry>, n: int)
    requires Sorted(s) && 0 <= n < |s|
    ensures forall e :: e in s[..n] ==> e.key <= s[n].key
    ensures forall e :: e in s[n + 1..] ==> s[n].key <= e.key
  {
    forall e | e in s[..n]
      ensures e.key <= s[n].key
    {
      var i :| 0 <= i < n && s[..n][i] == e;
      assert s[i] == e;
    }
    forall e | e in s[n + 1..]
      ensures s[n].key <= e.key
    {
      var i :| 0 <= i < |s| - n - 1 && s[n + 1..][i] == e;
      assert s[n + 1 + i] == e;
    }
  }
}

=== FILE: red_black_tree.dfy ===
/** The `RBT` object as the scheduler sees it: a root and the `n_elements`
    counter, with `insert`, `delete` and `get_leftmost`. */
module RedBlackTree {
  import opened RbTree
  import RbInsert
  import RbDelete

  /** The tree object: the root (the sentinel when empty) and the counter. */
  datatype Rbt = Rbt(root: Tree, nElements: int)

  /** The counter agrees with the number of real nodes, the tree is a BST,
      and the root is black. `fix_insert` relies on the black root: a red
      parent always has a grandparent. */
  ghost predicate Valid(q: Rbt) {
    q.nElements == Size(q.root) && Sorted(InOrder(q.root)) && !IsRed(q.root)
  }

  /** `RBT.__init__`: the root is the sentinel and the counter is zero. */
  function Empty(): (q: Rbt)
    ensures Valid(q) && InOrder(q.root) == []
  {
    Rbt(Nil, 0)
  }

  /** `insert`: count one more element, then descend and rebalance. */
  function Insert(q: Rbt, k: real, p: string): Rbt {
    Rbt(RbInsert.Insert(q.root, k, p), q.nElements + 1)
  }

  /** `delete` of the node at `route`: count one element fewer, then splice. */
  function Delete(q: Rbt, route: seq<Dir>): Rbt
    requires ValidRoute(q.root, route)
  {
    Rbt(RbDelete.Delete(q.root, route), q.nElements - 1)
  }

  /** The pair of the node `get_leftmost` answers for a non-empty tree. */
  function Front(t: Tree): Entry
    requires t.Node?
  {
    EntryOf(SubtreeAt(t, Leftmost(t).route))
  }

  /** The front pair is the first of the in-order sequence and, in a BST,
      has a key no larger than any other. */
  lemma FrontIsMinimum(t: Tree)
    requires t.Node?
    ensures |InOrder(t)| > 0 && Front(t) == InOrder(t)[0]
    ensures Sorted(InOrder(t)) ==> forall e :: e in InOrder(t) ==> Front(t).key <= e.key
  {
    IndexEntry(t, Leftmost(t).route);
    if Sorted(InOrder(t)) {
      LeftmostIsMinimum(t);
      forall e | e in InOrder(t) ensures Front(t).key <= e.key {
        var i :| 0 <= i < |InOrder(t)| && InOrder(t)[i] == e;
      }
    }
  }

  /** `insert` keeps the object valid, adds exactly the new pair, and puts
      it after every entry with a key no larger than its own. */
  lemma InsertKeepsValid(q: Rbt, k: real, p: string)
    requires Valid(q)
    ensures var r := Insert(q, k, p);
      var s := InOrder(q.root);
      var u := RbInsert.UpperBound(s, k);
      Valid(r) && r.nElements == q.nElements + 1 &&
      InOrder(r.root) == s[..u] + [Entry(k, p)] + s[u..] &&
      Pids(InOrder(r.root)) == Pids(s) + multiset{p}
  {
    var s := InOrder(q.root);
    var u := RbInsert.UpperBound(s, k);
    RbInsert.InsertInOrder(q.root, k, p);
    RbInsert.FixInsertRootBlack(Node(Red, Nil, k, p, Nil), RbInsert.Descend(q.root, k, []));
    PidsAround(s[..u], Entry(k, p), s[u..]);
    assert s[..u] + s[u..] == s;
  }

  /** `delete` keeps the object valid and removes exactly the pair at the
      node's in-order position. */
  lemma DeleteKeepsValid(q: Rbt, route: seq<Dir>)
    requires Valid(q) && ValidRoute(q.root, route)
    ensures var r := Delete(q, route);
      var s := InOrder(q.root);
      var i := Index(q.root, route);
      var e := EntryOf(SubtreeAt(q.root, route));
      Valid(r) && r.nElements == q.nElements - 1 &&
      i < |s| && s[i] == e && InOrder(r.root) == s[..i] + s[i + 1..] &&
      Pids(InOrder(r.root)) + multiset{e.pid} == Pids(s)
  {
    var s := InOrder(q.root);
    var i := Index(q.root, route);
    RbDelete.DeleteInOrder(q.root, route);
    RbDelete.DeleteRootBlack(q.root, route);
    assert s == s[..i] + [s[i]] + s[i + 1..];
    PidsAround(s[..i], s[i], s[i + 1..]);
  }

  lemma PidsAround(a: seq<Entry>, e: Entry, b: seq<Entry>)
    ensures Pids(a + [e] + b) == Pids(a + b) + multiset{e.pid}
  {
    PidsAppend(a + [e], b);
    PidsAppend(a, [e]);
    PidsAppend(a, b);
    assert [e][1..] == [];
  }
}
